=== FILE: README.md ===
# sorry — a Dafny model

`sorry` is a small Rust game workspace. This project models three parts of it:

- **Entity replication.** The server (`admin`) and the browser client (`degen`) keep an ECS world in step. They do it over `NetMessage`s (`NewEnt(id)`, `InsertComp(id, component)`).
  - The client translates server entity ids into local ones. It drops components whose entity is unknown or dead.
  - The server creates an entity for every new connection. It places each component a client sends on that client's own entity.
  - The server welcomes each logging-in player with a snapshot of the world, followed by a `Camera` on the player's entity.
- **The 2D shooter** (`src`). This covers its hand-rolled entity store (`Game`) and the player's and the first level's shooting cooldowns. It also covers the enemy's health and waypoint bookkeeping, and the keyboard controls.
- **The crafting CLI** (`make`). This is the per-line `give` / `show` / `q` handler and the inventory merge.

Module layout:

- `Wrappers`: `Option` and `Result`. A Rust panic on a path the model covers becomes a `Failure`.
- `Ecs`: specs' entity allocator, `World(live, next, free, gen)`. A deleted slot goes on a free list and has its generation bumped. Creation reuses a freed slot, if there is one, before the counter grows. The model hands back the most recently freed slot first; the source does not show specs' reuse order, and no property here depends on it. It also holds the deferred-write log that stands for specs' `LazyUpdate`.
- `Art`, `Physics`, `Comn`: the shared wire types and `NetComponent::insert` / `from_comp`.
- `DegenNet`: the client's `HandleServerPackets` and `ServerConnection::insert_comp`, with the bare-slot table `server_to_local_ids` as written.
- `DegenTagged`: the same translator with a table of full (slot, generation) handles, the corrected form of the bare-slot table.
- `AdminNet`, `AdminPackets`, `AdminLogin`: the server's state, `HandleClientPackets` and `SendWorldToNewPlayers`.
- `Replication`: properties that connect the two ends.
- `ShooterPrelude`, `ShooterEnemy`, `ShooterGame`, `ShooterControls`: the shooter.
- `CraftCli`: the crafting CLI.

Nothing from the outside world is called:

- A lock that `try_lock` fails to take is a `contended` flag.
- The channel from the WebSocket or network thread is a message queue or inbox parameter.
- A `HashMap` iteration order is an `order` parameter, and the model's results are proved independent of it where that matters.
- `Math.random()` draws are a `velocities` parameter.
- The floating-point "arrived at waypoint" test is an `arrived` flag.

Observations the proofs make precise:

- **The new player's `Camera` is dropped.** In these revisions a new player's entity gets only `Client` and `LoggingIn`; the system that would give it a position is commented out. So the entity is never in the welcome snapshot, and the client drops the final `Camera` insert as a component for an unknown entity. `Replication.CameraLandsIffOwnEntityAnnounced` proves that the camera lands if and only if the player's own entity is live and positioned.
- **A panic loses the whole batch.** A failed `addr_to_ent` lookup panics the system. The model returns the `Failure` and none of the messages already queued in that run.
- **A bare slot index can alias a new entity.** The client stores only `ents.create().id()`, and `ents.entity(id)` rebuilds a handle with the slot's current generation. Once a bound entity is deleted and its slot reused, the old server id resolves to the new entity. No shown client code deletes entities, so this is latent (see Findings). The server's `addr_to_ent` stores a bare `ent.id()` too, and has the same hazard if a client's entity is deleted while its address stays bound (`AdminPackets.DisconnectedAddressAliases`).
- **The shown revisions are mixed.** `NetComponent` in `comn/src/lib.rs` has only `Appearance` and `SimplePosition`. `admin/src/net/login.rs` and the client also send `Camera`, `Heading` and `Looking`, so the model's `NetComponent` has those three as opaque variants. `from_comp` registers only the first two (`Comn.FromComp`).

## Model

| member | source | states |
|---|---|---|
| Comn.Insert | comn/src/lib.rs:40-45 | Appends exactly one deferred write. The write targets the given entity and carries the component of the same kind and value. Earlier writes are kept. |
| Comn.FromComp | comn/src/lib.rs:47-62 | A registered component becomes the wire variant of its own kind, and only that one, carrying the same value. |
| Comn.InsertFromComp | comn/src/lib.rs:40-62 | Round trip: inserting `from_comp(c)` on an entity writes `c` itself on it. |
| Comn.FromCompOfInsert | comn/src/lib.rs:40-62 | Round trip the other way: the component an insert writes converts back to the same wire value. |
| Ecs.World.Create | admin/src/net/packets.rs:37 | The created entity was not live and now is, and every other entity keeps its liveness. A freed slot is reused before the next id moves past it; the model takes the most recently freed one. Existing generations are unchanged. |
| Ecs.World.Destroy | degen/src/main.rs:234-239 | The deletion whose effect `ents.entity` and `is_alive` observe: deleting a live entity frees its slot and bumps its generation, so old handles to it stop being alive. Deleting a dead one changes nothing. No other entity's liveness changes. |
| DegenNet.HandleServerMessage | degen/src/main.rs:225-248 | `NewEnt` creates a fresh local entity and binds the server id to it, overwriting any old binding; nothing else changes. `InsertComp` never changes the table or the world. For an unknown id it logs "can't insert" and writes nothing. For a bound but dead entity it logs "filtering out" and then "can't insert". For a live entity it defers exactly one write, of that component, on the bound entity. Every bound slot stays allocated. |
| DegenNet.Drain | degen/src/main.rs:222-249 | Draining keeps the state consistent and only adds live entities. It never rewrites earlier deferred writes, and every new write targets a live entity. |
| DegenNet.HandleServerPackets | degen/src/main.rs:220-251 | On a contended lock the state and the queue are untouched. Otherwise the whole queue is drained in order and left empty. |
| DegenNet.DrainAppend | degen/src/main.rs:221-222 | Draining `a + b` is draining `a` and then `b`. |
| DegenNet.SkippedTickLosesNothing | degen/src/main.rs:221-222 | A tick skipped on contention loses no message: the next tick sees the old messages before the new ones. |
| DegenNet.NewEntThenInsert | degen/src/main.rs:226-243 | A component sent after its `NewEnt` lands on the freshly created local entity. |
| DegenNet.InsertBeforeNewEntDropped | degen/src/main.rs:230-246 | A component arriving before its entity's `NewEnt` is dropped and reported, never applied. |
| DegenNet.StaleBindingAliases | degen/src/main.rs:226-243 | As written: after the entity bound to `id` is deleted and a new `NewEnt(id2)` reuses its slot, both ids resolve to the new entity, the table is no longer injective, and a component for `id` is written on `id2`'s entity. |
| DegenTagged.HandleServerMessage | degen/src/main.rs:225-248 | With handle bindings, `NewEnt` binds a live handle to a slot that was not live. `InsertComp` writes exactly when the handle is alive, and otherwise logs as the source does. Generations never move back and the table stays injective. |
| DegenTagged.DeadHandleStaysDead | degen/src/main.rs:234-239 | A handle whose slot's generation has moved past it is dead after any drain. |
| DegenTagged.StaleHandleNeverWrites | degen/src/main.rs:230-246 | Once the entity bound to a server id is deleted, a component for that id is dropped after any drain, for as long as the binding stays. |
| DegenTagged.ReusedSlotDoesNotAlias | degen/src/main.rs:226-243 | When the deleted entity's slot is reused for `NewEnt(id2)`, `id2` resolves to it but `id` does not, and a component for `id` writes nothing. |
| DegenNet.SendInsertComp | degen/src/main.rs:108-118 | A component the client sends is queued after everything sent before, aimed at id 0. |
| AdminNet.ValidInjective | admin/src/net/packets.rs:37-42 | On a consistent server no two addresses share an entity. |
| AdminPackets.HandleClientPacket | admin/src/net/packets.rs:22-57 | A repeated `NewEnt` from a known address changes nothing. A first `NewEnt` creates one fresh entity, makes it a logging-in client of that address and binds the address. `InsertComp` from an unknown address panics, and so does one whose entity is dead. Otherwise it defers exactly that component on the sender's own entity. Consistency is kept. |
| AdminPackets.HandleClientPackets | admin/src/net/packets.rs:21-59 | Processing the inbox in order keeps the state consistent. Existing address bindings never change and the world only grows. Deferred writes are append-only, and each one targets a live client entity. |
| AdminPackets.HandleClientPacketsAppend | admin/src/net/packets.rs:21-59 | Handling `a + b` is handling `a` and then, unless it panicked, `b`. |
| AdminPackets.MessageIdIgnored | admin/src/net/packets.rs:25-57 | The id a client puts in a message has no effect; the sender's address alone decides. |
| AdminPackets.DisconnectedAddressAliases | admin/src/net/packets.rs:35-57 | As written: if a client's entity is deleted while its address stays bound, that address's component panics as a disconnected client, until a new client's first contact reuses the slot. From then on both addresses are bound to the new entity, and the old address's component is written on the new client's entity. |
| AdminPackets.BindingsStayInjective | admin/src/net/packets.rs:28-42 | After any inbox, no two addresses are bound to the same entity. |
| AdminLogin.SnapshotAnnounces | admin/src/net/login.rs:26-33 | An entity is announced in the snapshot if and only if it is live and has a position. |
| AdminLogin.SnapshotWellOrdered | admin/src/net/login.rs:28-32 | Each announcement is followed by that entity's position, then by its appearance exactly when it has one. |
| AdminLogin.SnapshotCreatesFirst | admin/src/net/login.rs:28-32 | Every component in a snapshot comes after the `NewEnt` of its entity. |
| AdminLogin.Welcome | admin/src/net/login.rs:26-41 | For a bound address: the snapshot of the whole world followed by one `Camera` on the address's own entity. An unbound address panics. |
| AdminLogin.WelcomeFrom | admin/src/net/login.rs:22-42 | Messages go only to joining clients. The step fails if and only if some joining client's address is unbound. |
| AdminLogin.SendWorldToNewPlayers | admin/src/net/login.rs:21-43 | Only the logging-in markers of clients are removed, and messages go only to joining clients. It fails if and only if a joining client's address is unbound. |
| AdminLogin.NoMarkerLeft | admin/src/net/login.rs:22 | On a consistent server the welcome succeeds and no entity is left logging in. |
| AdminLogin.WelcomeFromTo | admin/src/net/login.rs:22-42 | A joining client receives exactly its own welcome, whatever the other clients receive. |
| AdminLogin.WelcomeDelivered | admin/src/net/login.rs:22-42 | Each logging-in client receives exactly the snapshot followed by a `Camera` on its own entity, and nothing else. |
| AdminLogin.SameWorldSameSnapshot | admin/src/net/login.rs:26-41 | Two players welcomed from the same world get the same snapshot; only the camera target differs. |
| Replication.DrainBindsAnnounced | degen/src/main.rs:222-229 | After a drain, the bound server ids are the old ones plus those announced. Every announced id is bound to a live entity, and unannounced bindings are unchanged. |
| Replication.CameraLandsIffOwnEntityAnnounced | admin/src/net/login.rs:26-41 | A fresh client draining its welcome defers a camera write if and only if its own entity is live and positioned on the server. The write is then the last one, and it is on the live local entity that its server id is bound to. |
| Replication.ClientComponentLandsOnOwnEntity | admin/src/net/packets.rs:48-56 | A component a client sends arrives as an insert for id 0, and the server defers it on that client's own entity. |
| ShooterEnemy.New | src/enemy.rs:11-17 | A new enemy keeps its route and health and heads for the first waypoint, which exists when the route is non-empty. |
| ShooterEnemy.DamageAsWritten | src/enemy.rs:33-36 | One hit takes one health point and reports death exactly at the last point. At zero health it underflows, as a debug build's panic. |
| ShooterEnemy.Damage | src/enemy.rs:32-36 | The saturating hit. Wherever the source does not underflow, it agrees with the source. |
| ShooterEnemy.SecondHitOnLastPointUnderflows | src/main.rs:304-310 | Two hits in one frame on an enemy with one health point underflow as written. The saturating version marks the enemy dead. |
| ShooterEnemy.FrameKills | src/main.rs:304-310 | A frame's hits mark an enemy dead if and only if they reach its health. The source runs without underflow if and only if they do not exceed it. |
| ShooterEnemy.Update | src/enemy.rs:24-29 | Arriving advances the goal by one and wraps to the first waypoint after the last. Not arriving keeps it. The goal always names a waypoint. |
| ShooterEnemy.FullCycle | src/enemy.rs:24-29 | After as many arrivals as there are waypoints the enemy heads for the same waypoint again, having restarted at the first on the way. |
| ShooterGame.Entity | src/main.rs:205-209 | Hands out the counter and bumps it by one. The id holds no component yet. |
| ShooterGame.EntitiesIncrease | src/main.rs:205-209 | Ids handed out one after the other strictly increase, so none is reused. |
| ShooterGame.MaxEntity | src/main.rs:211-213 | `max_entity` is the id counter, so every id that has a component is below it, which is what the render scan relies on. |
| ShooterGame.InsertBullet | src/main.rs:174-183 | A fresh id gets exactly position, bullet, hitbox and the "Bullet" appearance. Nothing else changes. |
| ShooterGame.InsertEnemy | src/main.rs:185-194 | A fresh id gets exactly position, enemy, hitbox and the "Enemy" appearance. Nothing else changes. |
| ShooterGame.DeleteEnt | src/main.rs:166-172 | The id loses every component, and every other id keeps exactly what it had. |
| ShooterGame.DeleteEntIdempotent | src/main.rs:166-172 | Deleting twice is deleting once, so a duplicate in the dead list is harmless. |
| ShooterGame.Player | src/main.rs:195-198 | A fresh id becomes the player, and nothing else changes. |
| ShooterGame.FiresEverySixthTick | src/main.rs:237-250 | A shooter that wants to fire every tick fires on exactly every sixth tick, and the counter never exceeds 5. |
| ShooterGame.HeldShootFiresEverySixthTick | src/main.rs:237-251 | Holding the shoot key from a loaded gun, the player's cooldown after `n` ticks is that counter's, and exactly one bullet has been fired per started block of six ticks. |
| ShooterGame.PlayerShoot | src/main.rs:237-251 | Nothing moves unless shooting is wanted. At zero cooldown, one enemy-killing bullet moving up at 0.4 is placed at the player, with a 1×1 hitbox and the "Bullet" appearance, and the cooldown reloads to 5. Otherwise the cooldown counts down. A held key moves the cooldown as the shared counter does, a bullet is fired exactly at zero, and the player id never changes. |
| ShooterGame.Volley | src/main.rs:59-72 | One player-killing bullet per enemy, in iteration order, each at its enemy's position with its drawn velocity, a 1×1 hitbox and the "Bullet" appearance. Existing entities are untouched. It panics if and only if some enemy has no position. |
| ShooterGame.LevelOneUpdate | src/main.rs:56-76 | At zero the level fires exactly the volley of all enemies and reloads to 5; it panics if and only if some enemy has no position. Otherwise it counts down and changes nothing. |
| ShooterControls.HandleKeyEvent | src/controls.rs:23-39 | Repeats change nothing. An empty key name panics. Only the lower-cased first letter, and only if tracked, is set to the event's state. |
| ShooterControls.HandleKeyEvents | src/controls.rs:22-40 | A run of events panics if and only if one of them is a non-repeat with an empty key name. |
| ShooterControls.LastEventWins | src/controls.rs:24-37 | After a run of events only tracked keys were added. Each key holds the state of its last non-repeat event, or its old state if it had none. |
| ShooterControls.FoldIsDirection | src/controls.rs:67-73 | The fold over the key map gives `(d - a, s - w)` of the held keys for every iteration order. |
| ShooterControls.Update | src/controls.rs:59-81 | A contended lock means no shot and no move. Otherwise it shoots exactly when `,` is held, and it moves by the held-key direction whenever any key has been seen. |
| CraftCli.Words | make/src/main.rs:29 | Every word is non-empty and whitespace-free. |
| CraftCli.WordsLoseOnlyWhitespace | make/src/main.rs:29 | The words, concatenated, are the line with its whitespace removed. |
| CraftCli.ParseU8 | make/src/main.rs:38 | Accepts exactly an optional `+` followed by one or more digits whose value is below 256, and yields that value. |
| CraftCli.ParseShow | make/src/main.rs:38 | Every count round-trips through its decimal form, with or without a leading `+`. |
| CraftCli.LowerMatchesIgnoringCase | make/src/main.rs:53-58 | Two names lower-case to the same string if and only if they are equal up to case, character by character: an ASCII letter matches its other case and the Kelvin sign matches `k`. |
| CraftCli.LowerExample | make/src/main.rs:53 | `Lower("WaTeR")` is `"water"`. |
| CraftCli.KnownNames | make/src/main.rs:7-19 | The names `give` accepts are the nine compendium entries in lower case. |
| CraftCli.KnownIgnoresCase | make/src/main.rs:53-58 | A name is known if and only if it equals some compendium entry up to case. |
| CraftCli.LowerIdempotent | make/src/main.rs:53-61 | Lowering a lowered name changes nothing, so stored names match themselves. |
| CraftCli.AddToMatches | make/src/main.rs:66-71 | Every item with the name gains the count and every other is unchanged. It overflows if and only if some matching count would pass 255. |
| CraftCli.Merge | make/src/main.rs:64-78 | A new name is appended as exactly one entry at the end. A held name adds to the entries that have it. |
| CraftCli.MergeKeepsUnique | make/src/main.rs:64-78 | Merging keeps names unique, and afterwards the name is held. |
| CraftCli.GiveHeld | make/src/main.rs:64-71 | Giving a held item within range changes only that entry's count, by the given amount. |
| CraftCli.GiveArgs | make/src/main.rs:33-51 | A first argument that parses as a count gives the count, and the next word, if any, gives the name. Otherwise the count is 1 and the first argument is the name. |
| CraftCli.Give | make/src/main.rs:32-82 | An unknown or empty name changes nothing. A known one is merged under its lower-case spelling. |
| CraftCli.GiveNewByLine | make/src/main.rs:29-78 | `give N name` for a known, unheld name appends one entry: the lower-case name with count N. |
| CraftCli.GiveWithoutName | make/src/main.rs:36-51 | `give`, and `give N` without a name, change nothing. |
| CraftCli.HandleLine | make/src/main.rs:29-95 | Only `give` can change the inventory or panic. The line quits exactly when its first word is `q` or `quit`. |
| CraftCli.HandleLineKeepsWellFormed | make/src/main.rs:32-95 | Each line keeps held names unique and drawn from the compendium. |
| CraftCli.Session | make/src/main.rs:25-96 | A session continues past the input only if no line quits. It ends in a quit only if some line quits. |
| CraftCli.QuitEndsSession | make/src/main.rs:25-90 | The lines after a quitting line are never read: the session ends as if the input stopped there. |
| CraftCli.SessionKeepsWellFormed | make/src/main.rs:25-96 | Any session that does not panic ends with unique compendium names. |

## Findings

| source | as written | input that shows it | evidently intended | confidence | as-written member | corrected member |
|---|---|---|---|---|---|---|
| src/enemy.rs:34 | `self.health -= 1` on a `usize`, called once per overlapping player bullet at src/main.rs:307. In a debug build the second hit panics; a release build wraps instead. | An enemy with one health point sweeps sideways across a column of player bullets. The bullets are fired every sixth tick at 0.4 per tick, so they are 2.4 apart. Two of them sit inside the 3.8-wide overlap band of the two hitboxes, so both hit in one frame, and the second hit computes `0 - 1`. | An enemy that is already dead takes no further damage, and the frame marks it dead | medium; not executed | ShooterEnemy.SecondHitOnLastPointUnderflows | ShooterEnemy.FrameKills |
| degen/src/main.rs:227-234 | `server_to_local_ids` stores `ents.create().id()`, a bare slot index, and `ents.entity(*ent)` rebuilds the handle with the slot's current generation | The entity bound to server id 1 is deleted and its slot freed, then `NewEnt(2)` reuses the slot. `InsertComp(1, c)` now resolves to the new entity, passes the `is_alive` filter and writes `c` on server entity 2. No shown client code deletes entities, so this is latent. | A component for a deleted entity is filtered out, as the "filtering out dead ent" branch intends | medium; not executed | DegenNet.StaleBindingAliases | DegenTagged.StaleHandleNeverWrites |

## Left out

- Entity ids are unbounded naturals, not `u32`/`usize`. Wrap-around after 2^32 allocations is not modelled.
- specs' allocator is modelled by its observable behaviour: a stack of freed slots, reused before the counter grows, and a generation per slot. Which freed slot specs hands back first is not shown by the source; the model takes the most recently freed, and no property depends on that choice. Its bit sets and atomics are not modelled, and deletion takes effect at once rather than at the next `maintain`.
- AdminNet.Valid: assumes that deleting a client's entity also unbinds its address, since the code that handles a disconnect (the `ConnectionManager`) is not part of this model. Without that assumption the server's bare-slot table can alias after slot reuse, as `AdminPackets.DisconnectedAddressAliases` shows, so `AdminNet.ValidInjective` and `AdminPackets.BindingsStayInjective` hold only for servers that unbind on disconnect.
- DegenNet: the as-written client's table is not injective once slots are reused, so no injectivity is promised for it. `DegenTagged` promises it.
- Connection internals are not modelled: the `ConnectionManager`'s WebSocket threads, rmp serialization, the browser `FileReader` callback and the channels. Outbound traffic is a list of `(address, message)` pairs; inbound traffic is a queue parameter.
- Logging (`info!`, `trace!`, `debug!`) is not modelled. The client's two `console!` lines are kept, as `ConsoleLine`s.
- Position contents are not modelled: `SimplePosition` and `Isometry` values are opaque. So are `SyncPositions`' lerp/slerp, the client camera (`make_front`, `update_orientation`), `CameraControl` and `MovementControl`: they are floating-point math, outside the replication core.
- `admin/src/main.rs`, the renderers (`render`, `renderer.js`) and `comn::controls` are not part of this model.
- `RegisterNewPlayers` and the other commented-out code are not modelled, since they are not live code.
- The shooter's movement and collision are not modelled. These are `Enemy::update`'s position step, `Bullet::update`, the off-screen cull, and the ncollide proximity and containment tests: all floating-point geometry. The hit loop is modelled only as "n bullets overlap this enemy in this frame".
- Browser I/O in the shooter is not modelled: `js!` alerts, `location.reload()`, `random()` (it enters as drawn velocities), the `Level` closure plumbing, `change_level`, the second level, and the key listeners' registration with the document.
- Standard input and output in the crafting CLI are not modelled, including `show`'s printing. The model handles one line at a time, and a session is a list of lines.
- CraftCli.Lower: only maps A-Z and the Kelvin sign. Every other character's Unicode lower case is either itself or contains a character that occurs in no compendium name, so whether a name is known is decided as in the source.
- CraftCli.AddToMatches: a `u8` overflow is reported as the debug build's panic. The release build's wrap-around is not modelled.
- ShooterControls.HandleKeyEvent: the lower-casing is ASCII only. The `expect("there is no lowercase")` cannot fail, so it is not modelled.
- ShooterControls.Update: requires the `order` parameter to list the key map's keys once each. That parameter stands for `HashMap` iteration order. The position change is reported as a direction, to be scaled by 0.2, not applied to floats.
- ShooterEnemy.Update: requires the goal to name a waypoint. The index panic on an empty route is not modelled, because every enemy the game creates has a two-waypoint route.
- ShooterGame.PlayerShoot: requires the player to have a position. Without one, the game loop's `unwrap` at src/main.rs:234 panics before the shot.
- ShooterGame.Volley: requires every id in `order` to be an enemy, with one drawn velocity per id. It does not require `order` to list every enemy or each only once; `LevelOneUpdate` requires both, as the `HashMap` key order guarantees.
- ShooterGame.Volley: the drawn velocities are arbitrary. The source draws each as `(0, 0.4·r + 0.1)` with `r` from `random()` in [0, 1), and no property here depends on their values.
- ShooterEnemy.DamageAsWritten: models the debug build's underflow panic. In a release build `health` wraps to `usize::MAX` and `damage` returns false, but the enemy is still deleted, because the first hit of that frame already pushed it onto `dead`.
- ShooterGame.LevelOneUpdate: the level's win check, `alert` and `change_level` are not modelled.
- AdminLogin.SendWorldToNewPlayers: requires every client entity to have been allocated, which every reachable server state satisfies.
- Comn.FromComp: requires a registered component (`Appearance` or `SimplePosition`). The `unreachable!` for any other component is a programming error, not an input case.

=== FILE: admin_login.dfy ===
/** The server's welcome broadcast, `SendWorldToNewPlayers`: every client
    still carrying the `LoggingIn` marker loses it and is sent a snapshot
    of every positioned live entity, then the `Camera` it looks through. */
module AdminLogin {
  import opened Wrappers
  import opened Ecs
  import opened Comn
  import opened AdminNet
  import Art
  import Physics

  type Positions = map<EntityId, Physics.SimplePosition>
  type Appearances = map<EntityId, Art.Appearance>

  /** The messages announcing one existing entity: its creation, its
      position, then its appearance when it has one. */
  function EntityBlock(id: EntityId, positions: Positions, appearances: Appearances): seq<NetMessage>
    requires id in positions
  {
    [NewEnt(id), InsertComp(id, SimplePosition(positions[id]))]
    + (if id in appearances then [InsertComp(id, Appearance(appearances[id]))] else [])
  }

  /** The join `(&isos, appearances.maybe(), &*ents)` over ids `from` up to
      `to`, visited in ascending id order as the ECS joins iterate. */
  function Snapshot(live: set<EntityId>, positions: Positions, appearances: Appearances, from: nat, to: nat)
    : seq<NetMessage>
    decreases (to as int) - (from as int)
  {
    if from >= to then []
    else
      (if from in live && from in positions then EntityBlock(from, positions, appearances) else [])
      + Snapshot(live, positions, appearances, from + 1, to)
  }

  /** An entity is announced if and only if it is live and has a position. */
  lemma {:induction false} SnapshotAnnounces(
    live: set<EntityId>, positions: Positions, appearances: Appearances, from: nat, to: nat, e: EntityId)
    ensures NewEnt(e) in Snapshot(live, positions, appearances, from, to) <==>
      from <= e < to && e in live && e in positions
    decreases (to as int) - (from as int)
  {
    if from < to {
      var rest := Snapshot(live, positions, appearances, from + 1, to);
      SnapshotAnnounces(live, positions, appearances, from + 1, to, e);
      if from in live && from in positions {
        var b := EntityBlock(from, positions, appearances);
        assert Snapshot(live, positions, appearances, from, to) == b + rest;
        assert NewEnt(e) in b <==> e == from;
      }
    }
  }

  /** The message at `i` announces an entity: it is followed by that
      entity's position, then by its appearance exactly when it has one,
      and then by the next announcement or the end. */
  ghost predicate AnnouncedAt(r: seq<NetMessage>, i: nat, positions: Positions, appearances: Appearances)
    requires i < |r| && r[i].NewEnt?
  {
    && r[i].id in positions
    && i + 1 < |r|
    && r[i + 1] == InsertComp(r[i].id, SimplePosition(positions[r[i].id]))
    && (r[i].id in appearances ==>
          && i + 2 < |r| && r[i + 2] == InsertComp(r[i].id, Appearance(appearances[r[i].id]))
          && (i + 3 == |r| || r[i + 3].NewEnt?))
    && (r[i].id !in appearances ==> i + 2 == |r| || r[i + 2].NewEnt?)
  }

  /** A snapshot is a run of announcements, starting with one. */
  ghost predicate WellOrdered(r: seq<NetMessage>, positions: Positions, appearances: Appearances) {
    && (r == [] || r[0].NewEnt?)
    && forall i: nat :: i < |r| && r[i].NewEnt? ==> AnnouncedAt(r, i, positions, appearances)
  }

  lemma {:induction false} SnapshotWellOrdered(
    live: set<EntityId>, positions: Positions, appearances: Appearances, from: nat, to: nat)
    ensures WellOrdered(Snapshot(live, positions, appearances, from, to), positions, appearances)
    decreases (to as int) - (from as int)
  {
    if from < to {
      var rest := Snapshot(live, positions, appearances, from + 1, to);
      SnapshotWellOrdered(live, positions, appearances, from + 1, to);
      if from in live && from in positions {
        var b := EntityBlock(from, positions, appearances);
        var r := b + rest;
        assert Snapshot(live, positions, appearances, from, to) == r;
        forall i: nat | i < |r| && r[i].NewEnt?
          ensures AnnouncedAt(r, i, positions, appearances)
        {
          if i < |b| {
            assert i == 0 && r[1] == b[1];
            if from in appearances {
              assert r[2] == b[2];
            } else if 2 < |r| {
              assert r[2] == rest[0];
            }
          } else {
            var k := i - |b|;
            assert r[i] == rest[k] && rest[k].NewEnt?;
            assert AnnouncedAt(rest, k, positions, appearances);
            assert r[i + 1] == rest[k + 1];
            if i + 2 < |r| {
              assert r[i + 2] == rest[k + 2];
            }
          }
        }
      } else {
        assert Snapshot(live, positions, appearances, from, to) == rest;
      }
    }
  }

  /** Creation before mutation: every component message comes after the
      `NewEnt` of the entity it targets. */
  ghost predicate CreatesFirst(r: seq<NetMessage>) {
    forall j :: 0 <= j < |r| && r[j].InsertComp? ==> NewEnt(r[j].id) in r[..j]
  }

  lemma {:induction false} SnapshotCreatesFirst(
    live: set<EntityId>, positions: Positions, appearances: Appearances, from: nat, to: nat)
    ensures CreatesFirst(Snapshot(live, positions, appearances, from, to))
    decreases (to as int) - (from as int)
  {
    if from < to {
      var rest := Snapshot(live, positions, appearances, from + 1, to);
      SnapshotCreatesFirst(live, positions, appearances, from + 1, to);
      if from in live && from in positions {
        var b := EntityBlock(from, positions, appearances);
        var r := b + rest;
        assert Snapshot(live, positions, appearances, from, to) == r;
        forall j | 0 <= j < |r| && r[j].InsertComp?
          ensures NewEnt(r[j].id) in r[..j]
        {
          if j < |b| {
            assert r[j].id == from;
            assert r[..j][0] == NewEnt(from);
          } else {
            var k := j - |b|;
            assert r[j] == rest[k];
            assert NewEnt(rest[k].id) in rest[..k];
            assert r[..j] == b + rest[..k];
          }
        }
      } else {
        assert Snapshot(live, positions, appearances, from, to) == rest;
      }
    }
  }

  /** What one logging-in client at `addr` is sent: the snapshot, then the
      `Camera` for the entity bound to `addr`. An unbound address makes the
      index into `addr_to_ent` panic. */
  function Welcome(s: ServerState, addr: Addr, positions: Positions, appearances: Appearances)
    : (r: Result<seq<NetMessage>, Panic>)
    ensures addr !in s.addrToEnt <==> r.Failure?
    ensures r.Failure? ==> r.error == UnregisteredAddress(addr)
    ensures r.Success? ==>
      && |r.value| > 0
      && r.value[|r.value| - 1] == InsertComp(s.addrToEnt[addr], Camera)
      && r.value[..|r.value| - 1] == Snapshot(s.world.live, positions, appearances, 0, s.world.next)
  {
    if addr !in s.addrToEnt then Failure(UnregisteredAddress(addr))
    else
      var snap := Snapshot(s.world.live, positions, appearances, 0, s.world.next);
      assert (snap + [InsertComp(s.addrToEnt[addr], Camera)])[..|snap|] == snap;
      Success(snap + [InsertComp(s.addrToEnt[addr], Camera)])
  }

  /** A client in the outer join `(logging_ins.drain(), &clients)`. */
  predicate Joining(s: ServerState, e: EntityId) {
    e in s.loggingIn && e in s.clients
  }

  /** The outer join from id `from` upwards, in ascending id order. */
  function WelcomeFrom(s: ServerState, positions: Positions, appearances: Appearances, from: nat)
    : (r: Result<seq<Outbound>, Panic>)
    // messages go only to clients being welcomed
    ensures r.Success? ==> forall o :: o in r.value ==>
      exists e :: from <= e < s.world.next && Joining(s, e) && s.clients[e] == o.to
    // the run panics exactly when some welcomed client's address is unbound
    ensures r.Failure? <==>
      exists e :: from <= e < s.world.next && Joining(s, e) && s.clients[e] !in s.addrToEnt
    decreases s.world.next - from
  {
    if from >= s.world.next then Success([])
    else
      var rest := WelcomeFrom(s, positions, appearances, from + 1);
      if Joining(s, from) then
        var addr := s.clients[from];
        match Welcome(s, addr, positions, appearances)
        case Failure(p) => Failure(p)
        case Success(w) =>
          match rest
          case Failure(p) => Failure(p)
          case Success(out) =>
            assert forall o :: o in Address(addr, w) ==> o.to == addr;
            Success(Address(addr, w) + out)
      else rest
  }

  /** Every client that was in the join has no marker left and nothing
      else in the server state changes; positions, appearances and the
      entity set are only read. */
  function SendWorldToNewPlayers(s: ServerState, positions: Positions, appearances: Appearances)
    : (r: Result<(ServerState, seq<Outbound>), Panic>)
    requires forall e :: e in s.clients ==> e < s.world.next
    ensures r.Success? ==> r.value.0 == s.(loggingIn := s.loggingIn - s.clients.Keys)
    ensures r.Success? ==> forall o :: o in r.value.1 ==>
      exists e :: Joining(s, e) && s.clients[e] == o.to
    ensures r.Failure? <==> exists e :: Joining(s, e) && s.clients[e] !in s.addrToEnt
  {
    match WelcomeFrom(s, positions, appearances, 0)
    case Failure(p) => Failure(p)
    case Success(out) => Success((s.(loggingIn := s.loggingIn - s.clients.Keys), out))
  }

  /** On a consistent server no run panics and the marker is drained
      from every entity. */
  lemma NoMarkerLeft(s: ServerState, positions: Positions, appearances: Appearances)
    requires Valid(s)
    ensures SendWorldToNewPlayers(s, positions, appearances).Success?
    ensures SendWorldToNewPlayers(s, positions, appearances).value.0.loggingIn == {}
  {
  }

  /** The messages addressed to `a` from id `from` on, when `a` belongs to
      the joining entity `e` on a consistent server. */
  lemma {:induction false} WelcomeFromTo(
    s: ServerState, positions: Positions, appearances: Appearances, from: nat, e: EntityId)
    requires Valid(s) && Joining(s, e)
    ensures WelcomeFrom(s, positions, appearances, from).Success?
    ensures To(WelcomeFrom(s, positions, appearances, from).value, s.clients[e]) ==
      if from <= e then Welcome(s, s.clients[e], positions, appearances).value else []
    decreases s.world.next - from
  {
    if from < s.world.next {
      WelcomeFromTo(s, positions, appearances, from + 1, e);
      if Joining(s, from) {
        WelcomeFromJoining(s, positions, appearances, from, e);
      }
    }
  }

  /** One step of `WelcomeFromTo` where `from` itself is welcomed. */
  lemma WelcomeFromJoining(s: ServerState, positions: Positions, appearances: Appearances, from: nat, e: EntityId)
    requires Valid(s) && Joining(s, e) && Joining(s, from) && from < s.world.next
    requires WelcomeFrom(s, positions, appearances, from + 1).Success?
    requires To(WelcomeFrom(s, positions, appearances, from + 1).value, s.clients[e]) ==
      if from + 1 <= e then Welcome(s, s.clients[e], positions, appearances).value else []
    ensures WelcomeFrom(s, positions, appearances, from).Success?
    ensures To(WelcomeFrom(s, positions, appearances, from).value, s.clients[e]) ==
      if from <= e then Welcome(s, s.clients[e], positions, appearances).value else []
  {
    var a := s.clients[e];
    var b := s.clients[from];
    var rest := WelcomeFrom(s, positions, appearances, from + 1).value;
    var w := Welcome(s, b, positions, appearances).value;
    assert WelcomeFrom(s, positions, appearances, from) == Success(Address(b, w) + rest);
    ToAppend(Address(b, w), rest, a);
    ToAddress(b, w, a);
    ClientsInjective(s, from, e);
  }

  lemma ClientsInjective(s: ServerState, e1: EntityId, e2: EntityId)
    requires Valid(s) && e1 in s.clients && e2 in s.clients
    ensures s.clients[e1] == s.clients[e2] <==> e1 == e2
  {
  }

  /** A welcomed client receives exactly the snapshot followed by one
      `Camera` on its own entity, and nothing else. */
  lemma WelcomeDelivered(s: ServerState, positions: Positions, appearances: Appearances, e: EntityId)
    requires Valid(s) && e in s.loggingIn
    ensures SendWorldToNewPlayers(s, positions, appearances).Success?
    ensures To(SendWorldToNewPlayers(s, positions, appearances).value.1, s.clients[e]) ==
      Snapshot(s.world.live, positions, appearances, 0, s.world.next) + [InsertComp(e, Camera)]
  {
    WelcomeFromTo(s, positions, appearances, 0, e);
    var w := Welcome(s, s.clients[e], positions, appearances).value;
    assert w == w[..|w| - 1] + [w[|w| - 1]];
  }

  /** Two clients logging in against the same world receive the same
      snapshot; only the `Camera` target differs. */
  lemma SameWorldSameSnapshot(s: ServerState, positions: Positions, appearances: Appearances, a: Addr, b: Addr)
    requires a in s.addrToEnt && b in s.addrToEnt
    ensures var wa := Welcome(s, a, positions, appearances).value;
            var wb := Welcome(s, b, positions, appearances).value;
            |wa| == |wb| && wa[..|wa| - 1] == wb[..|wb| - 1]
            && wa[|wa| - 1] == InsertComp(s.addrToEnt[a], Camera)
            && wb[|wb| - 1] == InsertComp(s.addrToEnt[b], Camera)
  {
  }
}

=== FILE: admin_net.dfy ===
/** The server's networking state shared by its two systems: the
    `Client`/`LoggingIn` storages, the connection manager's `addr_to_ent`
    table, and its outbound fan-out (`new_ent`, `insert_comp`). */
module AdminNet {
  import opened Ecs
  import opened Comn

  /** A client's socket address, opaque. */
  datatype Addr = Addr(ip: seq<nat>, port: nat)

  /** One message queued for exactly one client. */
  datatype Outbound = Outbound(to: Addr, msg: NetMessage)

  /** Why the server process aborts. */
  datatype Panic =
    | UnregisteredAddress(addr: Addr)   // `addr_to_ent[&addr]` on a missing key
    | DisconnectedClient(addr: Addr)    // the explicit `panic!` for a dead entity

  datatype ServerState = ServerState(
    world: World,
    clients: map<EntityId, Addr>,       // storage of `Client(addr)`
    loggingIn: set<EntityId>,           // storage of the `LoggingIn` marker
    addrToEnt: map<Addr, EntityId>,     // `cm.addr_to_ent`
    lazy: seq<Write<Component>>)

  /** `addr_to_ent` and the `Client` storage are inverse to each other,
      every marker sits on a client, all ids were handed out, and a slot
      waiting for reuse carries no `Client` (deleting an entity removes
      its components). This assumes that whatever deletes a client's
      entity also unbinds its address; `AdminPackets.DisconnectedAddressAliases`
      shows what happens when it does not. */
  ghost predicate Valid(s: ServerState) {
    && s.world.Valid()
    && Allocated(s.addrToEnt, s.world)
    && (forall e :: e in s.clients ==> e < s.world.next)
    && (forall i :: 0 <= i < |s.world.free| ==> s.world.free[i] !in s.clients)
    && (forall a :: a in s.addrToEnt ==>
          s.addrToEnt[a] in s.clients && s.clients[s.addrToEnt[a]] == a)
    && (forall e :: e in s.clients ==>
          s.clients[e] in s.addrToEnt && s.addrToEnt[s.clients[e]] == e)
    && s.loggingIn <= s.clients.Keys
  }

  /** No two addresses are ever bound to the same entity. */
  lemma ValidInjective(s: ServerState)
    requires Valid(s)
    ensures Injective(s.addrToEnt)
  {
  }

  /** The messages of `out` addressed to `a`, in order. */
  function To(out: seq<Outbound>, a: Addr): seq<NetMessage> {
    if out == [] then []
    else (if out[0].to == a then [out[0].msg] else []) + To(out[1..], a)
  }

  /** Address every message of `msgs` to `a`. */
  function Address(a: Addr, msgs: seq<NetMessage>): (out: seq<Outbound>)
    ensures |out| == |msgs|
    ensures forall i :: 0 <= i < |out| ==> out[i] == Outbound(a, msgs[i])
  {
    if msgs == [] then [] else [Outbound(a, msgs[0])] + Address(a, msgs[1..])
  }

  lemma {:induction false} ToAppend(x: seq<Outbound>, y: seq<Outbound>, a: Addr)
    ensures To(x + y, a) == To(x, a) + To(y, a)
    decreases |x|
  {
    if x == [] {
      assert x + y == y;
    } else {
      assert (x + y)[1..] == x[1..] + y;
      ToAppend(x[1..], y, a);
    }
  }

  /** Filtering an addressed batch by its own address gives the batch back;
      filtering it by any other address gives nothing. */
  lemma {:induction false} ToAddress(a: Addr, msgs: seq<NetMessage>, b: Addr)
    ensures To(Address(a, msgs), b) == if a == b then msgs else []
    decreases |msgs|
  {
    if msgs != [] {
      var out := Address(a, msgs);
      assert out[1..] == Address(a, msgs[1..]);
      ToAddress(a, msgs[1..], b);
    }
  }
}

=== FILE: admin_packets.dfy ===
/** The server's inbound handler, `HandleClientPackets`: first contact
    creates the client's entity; a component a client sends always lands on
    that client's own entity. */
module AdminPackets {
  import opened Wrappers
  import opened Ecs
  import opened Comn
  import opened AdminNet

  /** The body of the `try_recv` loop for one `(addr, message)` pair. */
  function HandleClientPacket(s: ServerState, addr: Addr, msg: NetMessage): (r: Result<ServerState, Panic>)
    requires s.world.Valid()
    ensures Valid(s) && r.Success? ==> Valid(r.value)
    // a repeated NewEnt from a known address changes nothing
    ensures msg.NewEnt? && addr in s.addrToEnt ==> r == Success(s)
    // first contact: one fresh entity, tagged Client(addr) and LoggingIn, bound to addr
    ensures msg.NewEnt? && addr !in s.addrToEnt ==>
      && r.Success?
      && addr in r.value.addrToEnt
      && var e := r.value.addrToEnt[addr];
      && e !in s.world.live
      && r.value.world.live == s.world.live + {e}
      && r.value.clients == s.clients[e := addr]
      && r.value.loggingIn == s.loggingIn + {e}
      && r.value.addrToEnt == s.addrToEnt[addr := e]
      && r.value.lazy == s.lazy
    // a component from an unknown address: the map index panics
    ensures msg.InsertComp? && addr !in s.addrToEnt ==> r == Failure(UnregisteredAddress(addr))
    // a component for a dead client entity: the explicit panic
    ensures msg.InsertComp? && addr in s.addrToEnt && !s.world.IsAlive(s.addrToEnt[addr]) ==>
      r == Failure(DisconnectedClient(addr))
    // otherwise exactly one write, on the sender's own entity
    ensures msg.InsertComp? && addr in s.addrToEnt && s.world.IsAlive(s.addrToEnt[addr]) ==>
      r == Success(s.(lazy := s.lazy + [Write(s.addrToEnt[addr], ToComponent(msg.comp))]))
  {
    match msg
    case NewEnt(_) =>
      if addr in s.addrToEnt then Success(s)
      else
        var (w, ent) := s.world.Create();
        Success(ServerState(
          w,
          s.clients[ent := addr],
          s.loggingIn + {ent},
          s.addrToEnt[addr := ent],
          s.lazy))
    case InsertComp(_, comp) =>
      if addr !in s.addrToEnt then Failure(UnregisteredAddress(addr))
      else
        var id := s.addrToEnt[addr];
        if !s.world.IsAlive(id) then Failure(DisconnectedClient(addr))
        else Success(s.(lazy := Insert(comp, id, s.lazy)))
  }

  /** `while let Ok((addr, net_msg)) = cm.from_clients.try_recv()`: the
      messages are handled in the order they were received until the
      channel is empty, or until one of them makes the server panic. */
  function HandleClientPackets(s: ServerState, inbox: seq<(Addr, NetMessage)>): (r: Result<ServerState, Panic>)
    requires Valid(s)
    ensures r.Success? ==> Valid(r.value)
    // bindings, once made, are stable
    ensures r.Success? ==>
      forall a :: a in s.addrToEnt ==> a in r.value.addrToEnt && r.value.addrToEnt[a] == s.addrToEnt[a]
    // the allocator only moves forward and entities only appear
    ensures r.Success? ==> s.world.live <= r.value.world.live && s.world.next <= r.value.world.next
    // deferred writes are only appended, each on a live client entity
    ensures r.Success? ==>
      && |s.lazy| <= |r.value.lazy| && r.value.lazy[..|s.lazy|] == s.lazy
      && forall i :: |s.lazy| <= i < |r.value.lazy| ==>
           r.value.world.IsAlive(r.value.lazy[i].ent) && r.value.lazy[i].ent in r.value.clients
    decreases |inbox|
  {
    if inbox == [] then Success(s)
    else
      match HandleClientPacket(s, inbox[0].0, inbox[0].1)
      case Failure(p) => Failure(p)
      case Success(s1) => HandleClientPackets(s1, inbox[1..])
  }

  /** Handling a batch and then the next is handling both in one go. */
  lemma {:induction false} HandleClientPacketsAppend(s: ServerState, a: seq<(Addr, NetMessage)>, b: seq<(Addr, NetMessage)>)
    requires Valid(s)
    ensures HandleClientPackets(s, a + b) ==
      match HandleClientPackets(s, a)
      case Failure(p) => Failure(p)
      case Success(s1) => HandleClientPackets(s1, b)
    decreases |a|
  {
    if a == [] {
      assert a + b == b;
    } else {
      assert (a + b)[0] == a[0];
      assert (a + b)[1..] == a[1..] + b;
      match HandleClientPacket(s, a[0].0, a[0].1)
      case Failure(p) =>
      case Success(s1) => HandleClientPacketsAppend(s1, a[1..], b);
    }
  }

  /** The id a client puts in its message is never read: the sender's
      address alone decides what happens. */
  lemma MessageIdIgnored(s: ServerState, addr: Addr, i: EntityId, j: EntityId, c: NetComponent)
    requires Valid(s)
    ensures HandleClientPacket(s, addr, NewEnt(i)) == HandleClientPacket(s, addr, NewEnt(j))
    ensures HandleClientPacket(s, addr, InsertComp(i, c)) == HandleClientPacket(s, addr, InsertComp(j, c))
  {
  }

  /** Every binding made from any stream of first contacts is injective:
      no two addresses share an entity. */
  lemma BindingsStayInjective(s: ServerState, inbox: seq<(Addr, NetMessage)>)
    requires Valid(s)
    ensures HandleClientPackets(s, inbox).Success? ==> Injective(HandleClientPackets(s, inbox).value.addrToEnt)
  {
    var r := HandleClientPackets(s, inbox);
    if r.Success? {
      ValidInjective(r.value);
    }
  }

  /** Deleting a client's entity, as a disconnect would, without touching
      `addr_to_ent`: the entity and its components go, the binding stays.
      No code that does this is part of this model; it is the state the
      "disconnected client" panic anticipates. */
  function DeleteClientKeepingBinding(s: ServerState, addr: Addr): (r: ServerState)
    requires s.world.Valid() && addr in s.addrToEnt
    ensures var e := s.addrToEnt[addr];
      && r.world == s.world.Destroy(e)
      && r.clients == s.clients - {e} && r.loggingIn == s.loggingIn - {e}
      && r.addrToEnt == s.addrToEnt && r.lazy == s.lazy
  {
    var e := s.addrToEnt[addr];
    s.(world := s.world.Destroy(e), clients := s.clients - {e}, loggingIn := s.loggingIn - {e})
  }

  /** As written, the server's table has the client's bare-slot hazard.
      Right after the delete, a component from the old address hits the
      "disconnected client" panic. Once a new address's first contact
      reuses the slot, both addresses are bound to the new entity, and the
      old address's component is written on the new client's entity
      instead. */
  lemma DisconnectedAddressAliases(s: ServerState, a: Addr, b: Addr, c: NetComponent)
    requires Valid(s) && a in s.addrToEnt && b !in s.addrToEnt
    requires s.world.IsAlive(s.addrToEnt[a]) && s.world.free == []
    ensures var e := s.addrToEnt[a];
      var s0 := DeleteClientKeepingBinding(s, a);
      && s0.world.Valid()
      && HandleClientPacket(s0, a, InsertComp(0, c)) == Failure(DisconnectedClient(a))
      && var r1 := HandleClientPacket(s0, b, NewEnt(0));
      && r1.Success?
      && r1.value.addrToEnt[b] == e && r1.value.addrToEnt[a] == e
      && !Injective(r1.value.addrToEnt)
      && HandleClientPacket(r1.value, a, InsertComp(0, c))
           == Success(r1.value.(lazy := r1.value.lazy + [Write(e, ToComponent(c))]))
  {
    var e := s.addrToEnt[a];
    var s0 := DeleteClientKeepingBinding(s, a);
    assert s0.world.free == [e];
  }
}

=== FILE: comn.dfy ===
/** `comn::art`: the visual-appearance tag replicated to clients. */
module Art {
  datatype Appearance = Appearance(filepath: string)
}

/** `specs_physics::SimplePosition<f32>`. The isometry is carried as an
    opaque value: the replication core copies it but never computes with it. */
module Physics {
  datatype Isometry = Isometry(translation: seq<real>, rotation: seq<real>)
  datatype SimplePosition = SimplePosition(iso: Isometry)
}

/** `comn::net`: the wire protocol shared by server and client. */
module Comn {
  import opened Ecs
  import Art
  import Physics

  /** Opaque direction carried by the intent components. */
  datatype Direction = Direction(x: real, y: real, z: real)

  /** Component values as they live in an ECS storage. `Camera`, `Heading`
      and `Looking` come from `comn::controls`, which is not part of this
      model; they appear here only as opaque kinds. */
  datatype Component =
    | AppearanceComp(appearance: Art.Appearance)
    | PositionComp(position: Physics.SimplePosition)
    | CameraComp
    | HeadingComp(heading: Direction)
    | LookingComp(looking: Direction)

  /** The tagged component union sent over the wire. `Appearance` and
      `SimplePosition` are the two variants the shared crate declares; the
      other three are the payload kinds its callers also send. */
  datatype NetComponent =
    | Appearance(appearance: Art.Appearance)
    | SimplePosition(position: Physics.SimplePosition)
    | Camera
    | Heading(heading: Direction)
    | Looking(looking: Direction)

  /** A message is exactly one of these two shapes. */
  datatype NetMessage =
    | NewEnt(id: EntityId)
    | InsertComp(id: EntityId, comp: NetComponent)

  /** The component kinds `from_comp` has a downcast for. */
  predicate Registered(c: Component) {
    c.AppearanceComp? || c.PositionComp?
  }

  /** The ECS component a wire payload stands for. */
  function ToComponent(n: NetComponent): Component {
    match n
    case Appearance(a) => AppearanceComp(a)
    case SimplePosition(p) => PositionComp(p)
    case Camera => CameraComp
    case Heading(d) => HeadingComp(d)
    case Looking(d) => LookingComp(d)
  }

  /** `NetComponent::insert`: schedule the payload's component as one
      deferred write on `ent`, after everything already scheduled. */
  function Insert(n: NetComponent, ent: EntityId, lu: seq<Write<Component>>): (r: seq<Write<Component>>)
    ensures |r| == |lu| + 1 && r[..|lu|] == lu
    ensures r[|lu|].ent == ent
    ensures n.Appearance? ==> r[|lu|].comp == AppearanceComp(n.appearance)
    ensures n.SimplePosition? ==> r[|lu|].comp == PositionComp(n.position)
    ensures n.Camera? ==> r[|lu|].comp == CameraComp
    ensures n.Heading? ==> r[|lu|].comp == HeadingComp(n.heading)
    ensures n.Looking? ==> r[|lu|].comp == LookingComp(n.looking)
  {
    lu + [Write(ent, ToComponent(n))]
  }

  /** `NetComponent::from_comp`: classify a component into its wire variant.
      Any unregistered kind is unreachable in the source, so it is excluded. */
  function FromComp(c: Component): (n: NetComponent)
    requires Registered(c)
    ensures c.AppearanceComp? <==> n.Appearance?
    ensures c.AppearanceComp? ==> n.appearance == c.appearance
    ensures c.PositionComp? <==> n.SimplePosition?
    ensures c.PositionComp? ==> n.position == c.position
  {
    match c
    case AppearanceComp(a) => Appearance(a)
    case PositionComp(p) => SimplePosition(p)
  }

  /** Sending a registered component and inserting it on the far side
      writes back exactly that component. */
  lemma InsertFromComp(c: Component, ent: EntityId, lu: seq<Write<Component>>)
    requires Registered(c)
    ensures Insert(FromComp(c), ent, lu) == lu + [Write(ent, c)]
  {
  }

  /** The other direction: a payload of one of the two declared variants is
      recovered from the component it writes. */
  lemma FromCompOfInsert(n: NetComponent, ent: EntityId, lu: seq<Write<Component>>)
    requires n.Appearance? || n.SimplePosition?
    ensures Registered(Insert(n, ent, lu)[|lu|].comp)
    ensures FromComp(Insert(n, ent, lu)[|lu|].comp) == n
  {
  }
}

=== FILE: degen_net.dfy ===
/** The browser client's side of replication (`degen`, module `net`):
    the inbound translator `HandleServerPackets` and the outbound
    `ServerConnection::insert_comp`. */
module DegenNet {
  import opened Wrappers
  import opened Ecs
  import opened Comn

  /** What the translator writes to the browser console. */
  datatype ConsoleLine = FilteringOutDeadEnt | CantInsertForDeadEntity

  /** The client's replication state: the system's `server_to_local_ids`
      table, the local world, the deferred writes scheduled so far and the
      console output. */
  datatype ClientState = ClientState(
    serverToLocalIds: map<EntityId, EntityId>,
    world: World,
    lazy: seq<Write<Component>>,
    console: seq<ConsoleLine>)

  /** The translation table only points at slots the local allocator
      handed out. It holds bare slot indices, as `server_to_local_ids`
      does, so nothing keeps two server ids from sharing a slot. */
  ghost predicate Valid(s: ClientState) {
    && s.world.Valid()
    && Allocated(s.serverToLocalIds, s.world)
  }

  /** Look the server id up, then keep it only if the local entity is alive. */
  function Resolve(s: ClientState, id: EntityId): Option<EntityId> {
    if id in s.serverToLocalIds && s.world.IsAlive(s.serverToLocalIds[id])
    then Some(s.serverToLocalIds[id])
    else None
  }

  /** The body of the drain loop for one message. */
  function HandleServerMessage(s: ClientState, msg: NetMessage): (r: ClientState)
    requires Valid(s)
    ensures Valid(r)
    // NewEnt: one fresh live entity, bound to the server id (overwriting)
    ensures msg.NewEnt? ==>
      && msg.id in r.serverToLocalIds
      && r.serverToLocalIds[msg.id] !in s.world.live
      && r.world.live == s.world.live + {r.serverToLocalIds[msg.id]}
      && r.serverToLocalIds == s.serverToLocalIds[msg.id := r.serverToLocalIds[msg.id]]
      && r.lazy == s.lazy && r.console == s.console
    // InsertComp: the table and the world are untouched
    ensures msg.InsertComp? ==>
      r.serverToLocalIds == s.serverToLocalIds && r.world == s.world
    ensures msg.InsertComp? && msg.id !in s.serverToLocalIds ==>
      r.lazy == s.lazy && r.console == s.console + [CantInsertForDeadEntity]
    ensures msg.InsertComp? && msg.id in s.serverToLocalIds
            && !s.world.IsAlive(s.serverToLocalIds[msg.id]) ==>
      r.lazy == s.lazy
      && r.console == s.console + [FilteringOutDeadEnt, CantInsertForDeadEntity]
    ensures msg.InsertComp? && msg.id in s.serverToLocalIds
            && s.world.IsAlive(s.serverToLocalIds[msg.id]) ==>
      r.lazy == s.lazy + [Write(s.serverToLocalIds[msg.id], ToComponent(msg.comp))]
      && r.console == s.console
    ensures s.world.live <= r.world.live && s.world.next <= r.world.next
  {
    match msg
    case NewEnt(server) =>
      var (w, local) := s.world.Create();
      s.(serverToLocalIds := s.serverToLocalIds[server := local], world := w)
    case InsertComp(id, comp) =>
      var dead := if id in s.serverToLocalIds && !s.world.IsAlive(s.serverToLocalIds[id])
                  then [FilteringOutDeadEnt] else [];
      match Resolve(s, id)
      case Some(ent) => s.(lazy := Insert(comp, ent, s.lazy))
      case None => s.(console := s.console + dead + [CantInsertForDeadEntity])
  }

  /** `for msg in msgs.drain(0..)`: every queued message, in arrival order. */
  function Drain(s: ClientState, msgs: seq<NetMessage>): (r: ClientState)
    requires Valid(s)
    ensures Valid(r)
    ensures s.world.live <= r.world.live && s.world.next <= r.world.next
    // scheduled writes are only ever appended
    ensures |s.lazy| <= |r.lazy| && r.lazy[..|s.lazy|] == s.lazy
    // and every newly scheduled write targets an entity that is alive
    ensures forall i :: |s.lazy| <= i < |r.lazy| ==> r.world.IsAlive(r.lazy[i].ent)
    decreases |msgs|
  {
    if msgs == [] then s
    else Drain(HandleServerMessage(s, msgs[0]), msgs[1..])
  }

  /** `HandleServerPackets::run`: if the queue's lock is contended nothing
      happens this tick; otherwise the whole queue is drained. The result
      pairs the new state with what is left in the queue. */
  function HandleServerPackets(s: ClientState, queue: seq<NetMessage>, contended: bool)
    : (r: (ClientState, seq<NetMessage>))
    requires Valid(s)
    ensures contended ==> r.0 == s && r.1 == queue
    ensures !contended ==> r.1 == [] && r.0 == Drain(s, queue)
    ensures Valid(r.0)
  {
    if contended then (s, queue) else (Drain(s, queue), [])
  }

  /** Draining two batches one after the other is draining their
      concatenation: messages are handled strictly in arrival order. */
  lemma {:induction false} DrainAppend(s: ClientState, a: seq<NetMessage>, b: seq<NetMessage>)
    requires Valid(s)
    ensures Drain(s, a + b) == Drain(Drain(s, a), b)
    decreases |a|
  {
    if a == [] {
      assert a + b == b;
    } else {
      assert (a + b)[0] == a[0];
      assert (a + b)[1..] == a[1..] + b;
      DrainAppend(HandleServerMessage(s, a[0]), a[1..], b);
    }
  }

  /** A tick skipped on contention loses nothing: the next uncontended tick
      sees the old messages followed by the newer ones. */
  lemma SkippedTickLosesNothing(s: ClientState, queue: seq<NetMessage>, later: seq<NetMessage>)
    requires Valid(s)
    ensures var (s1, q1) := HandleServerPackets(s, queue, true);
            HandleServerPackets(s1, q1 + later, false).0 == Drain(Drain(s, queue), later)
  {
    DrainAppend(s, queue, later);
  }

  /** Creation before mutation: a component that follows its `NewEnt` lands
      on the entity that `NewEnt` created. */
  lemma NewEntThenInsert(s: ClientState, id: EntityId, c: NetComponent)
    requires Valid(s)
    ensures var r := Drain(s, [NewEnt(id), InsertComp(id, c)]);
            && id in r.serverToLocalIds
            && r.serverToLocalIds[id] !in s.world.live
            && r.lazy == s.lazy + [Write(r.serverToLocalIds[id], ToComponent(c))]
  {
    var s1 := HandleServerMessage(s, NewEnt(id));
    var s2 := HandleServerMessage(s1, InsertComp(id, c));
    assert [NewEnt(id), InsertComp(id, c)][1..] == [InsertComp(id, c)];
    assert Drain(s1, [InsertComp(id, c)]) == Drain(s2, []);
  }

  /** A component that arrives before its entity's `NewEnt` is dropped and
      reported, never applied to some other entity. */
  lemma InsertBeforeNewEntDropped(s: ClientState, id: EntityId, c: NetComponent)
    requires Valid(s) && id !in s.serverToLocalIds
    ensures var r := Drain(s, [InsertComp(id, c), NewEnt(id)]);
            r.lazy == s.lazy && r.console == s.console + [CantInsertForDeadEntity]
  {
    var s1 := HandleServerMessage(s, InsertComp(id, c));
    var s2 := HandleServerMessage(s1, NewEnt(id));
    assert [InsertComp(id, c), NewEnt(id)][1..] == [NewEnt(id)];
    assert Drain(s1, [NewEnt(id)]) == Drain(s2, []);
  }

  /** Bare slot indices alias after slot reuse. The entity bound to `id`
      is deleted, the next `NewEnt` is handed the freed slot, and from then
      on `id` and the new server id resolve to the same local entity: a
      component the server sends for the deleted entity lands on the new
      one. */
  lemma StaleBindingAliases(s: ClientState, id: EntityId, id2: EntityId, c: NetComponent)
    requires Valid(s) && id in s.serverToLocalIds && id2 != id
    requires s.world.IsAlive(s.serverToLocalIds[id]) && s.world.free == []
    ensures var local := s.serverToLocalIds[id];
            var s0 := s.(world := s.world.Destroy(local));
            var s1 := HandleServerMessage(s0, NewEnt(id2));
            && s1.serverToLocalIds[id2] == local
            && Resolve(s1, id) == Some(local) && Resolve(s1, id2) == Some(local)
            && !Injective(s1.serverToLocalIds)
            && HandleServerMessage(s1, InsertComp(id, c)).lazy ==
                 s1.lazy + [Write(s1.serverToLocalIds[id2], ToComponent(c))]
  {
    var local := s.serverToLocalIds[id];
    var s0 := s.(world := s.world.Destroy(local));
    assert s0.world.free == [local];
    var s1 := HandleServerMessage(s0, NewEnt(id2));
    assert s1.serverToLocalIds[id] == local;
  }

  /** `ServerConnection::insert_comp`: the client can only address its own
      entity, so every component it sends targets id 0. */
  function SendInsertComp(sent: seq<NetMessage>, c: NetComponent): (r: seq<NetMessage>)
    ensures |r| == |sent| + 1 && r[..|sent|] == sent
    ensures r[|sent|].InsertComp? && r[|sent|].id == 0 && r[|sent|].comp == c
  {
    sent + [InsertComp(0, c)]
  }
}

=== FILE: degen_tagged.dfy ===
/** The client's translator with a generation-tagged table: each server
    id maps to a full entity handle rather than a bare slot index, so a
    handle whose entity died never resolves again, even once its slot is
    handed out to a new entity. This is the table `server_to_local_ids`
    needs for its dead-entity filter to mean what it says. */
module DegenTagged {
  import opened Wrappers
  import opened Ecs
  import opened Comn
  import opened DegenNet

  datatype TaggedState = TaggedState(
    serverToLocal: map<EntityId, Entity>,
    world: World,
    lazy: seq<Write<Component>>,
    console: seq<ConsoleLine>)

  /** Every bound handle was made by the allocator and is at most as new
      as its slot; a handle of the slot's current generation is alive; no
      two server ids share a handle. */
  ghost predicate Valid(s: TaggedState) {
    && s.world.Valid()
    && (forall id :: id in s.serverToLocal ==> Issued(s.world, s.serverToLocal[id]))
    && Injective(s.serverToLocal)
  }

  ghost predicate Issued(w: World, h: Entity) {
    && h.id < w.next && |w.gen| == w.next
    && h.gen <= w.gen[h.id]
    && (h.gen == w.gen[h.id] ==> h.id in w.live)
  }

  /** Look the server id up, then keep it only if its handle is alive. */
  function Resolve(s: TaggedState, id: EntityId): Option<EntityId> {
    if id in s.serverToLocal && s.world.HandleAlive(s.serverToLocal[id])
    then Some(s.serverToLocal[id].id)
    else None
  }

  /** A newly created slot's handle differs from every bound handle. */
  lemma CreatedHandleIsNew(s: TaggedState)
    requires Valid(s)
    ensures var (w, local) := s.world.Create();
      forall id :: id in s.serverToLocal ==> s.serverToLocal[id] != w.EntityOf(local)
  {
  }

  /** One message, as in `DegenNet.HandleServerMessage` but binding and
      checking full handles. */
  function HandleServerMessage(s: TaggedState, msg: NetMessage): (r: TaggedState)
    requires Valid(s)
    ensures Valid(r)
    ensures msg.NewEnt? ==>
      && msg.id in r.serverToLocal
      && r.world.HandleAlive(r.serverToLocal[msg.id])
      && r.serverToLocal[msg.id].id !in s.world.live
      && r.world.live == s.world.live + {r.serverToLocal[msg.id].id}
      && r.serverToLocal == s.serverToLocal[msg.id := r.serverToLocal[msg.id]]
      && r.lazy == s.lazy && r.console == s.console
    ensures msg.InsertComp? ==> r.serverToLocal == s.serverToLocal && r.world == s.world
    ensures msg.InsertComp? && msg.id !in s.serverToLocal ==>
      r.lazy == s.lazy && r.console == s.console + [CantInsertForDeadEntity]
    ensures msg.InsertComp? && msg.id in s.serverToLocal
            && !s.world.HandleAlive(s.serverToLocal[msg.id]) ==>
      r.lazy == s.lazy
      && r.console == s.console + [FilteringOutDeadEnt, CantInsertForDeadEntity]
    ensures msg.InsertComp? && Resolve(s, msg.id).Some? ==>
      r.lazy == s.lazy + [Write(Resolve(s, msg.id).value, ToComponent(msg.comp))]
      && r.console == s.console
    // generations only move forward, and no slot is given up
    ensures s.world.next <= r.world.next && r.world.gen[..s.world.next] == s.world.gen
    ensures s.world.live <= r.world.live
  {
    match msg
    case NewEnt(server) =>
      var (w, local) := s.world.Create();
      var h := w.EntityOf(local);
      CreatedHandleIsNew(s);
      var table := s.serverToLocal[server := h];
      assert forall id :: id in table ==> Issued(w, table[id]) by {
        forall id | id in table ensures Issued(w, table[id]) {
          if id != server {
            assert table[id] == s.serverToLocal[id];
            assert w.gen[table[id].id] == s.world.gen[table[id].id];
          }
        }
      }
      s.(serverToLocal := table, world := w)
    case InsertComp(id, comp) =>
      var dead := if id in s.serverToLocal && !s.world.HandleAlive(s.serverToLocal[id])
                  then [FilteringOutDeadEnt] else [];
      match Resolve(s, id)
      case Some(ent) => s.(lazy := Insert(comp, ent, s.lazy))
      case None => s.(console := s.console + dead + [CantInsertForDeadEntity])
  }

  function Drain(s: TaggedState, msgs: seq<NetMessage>): (r: TaggedState)
    requires Valid(s)
    ensures Valid(r)
    ensures s.world.next <= r.world.next && r.world.gen[..s.world.next] == s.world.gen
    ensures s.world.live <= r.world.live
    decreases |msgs|
  {
    if msgs == [] then s
    else
      var s1 := HandleServerMessage(s, msgs[0]);
      var r := Drain(s1, msgs[1..]);
      assert r.world.gen[..s.world.next] == s.world.gen by {
        assert r.world.gen[..s1.world.next][..s.world.next] == s1.world.gen[..s.world.next];
      }
      r
  }

  /** A handle whose generation the slot has moved past stays dead, however
      many messages are drained, since generations never move back. */
  lemma DeadHandleStaysDead(s: TaggedState, msgs: seq<NetMessage>, h: Entity)
    requires Valid(s) && h.id < s.world.next && h.gen < s.world.gen[h.id]
    ensures !Drain(s, msgs).world.HandleAlive(h)
  {
    var r := Drain(s, msgs);
    assert r.world.gen[h.id] == r.world.gen[..s.world.next][h.id];
  }

  /** Dead-entity safety: once the entity bound to a server id is deleted,
      a component for that id is dropped for as long as the binding
      stays, even after its slot has been handed to a new entity. */
  lemma StaleHandleNeverWrites(s: TaggedState, id: EntityId, msgs: seq<NetMessage>, c: NetComponent)
    requires Valid(s) && id in s.serverToLocal && s.world.HandleAlive(s.serverToLocal[id])
    ensures var h := s.serverToLocal[id];
            var s0 := s.(world := s.world.Destroy(h.id));
            Valid(s0) &&
            var s1 := Drain(s0, msgs);
            id in s1.serverToLocal && s1.serverToLocal[id] == h ==>
              && Resolve(s1, id).None?
              && HandleServerMessage(s1, InsertComp(id, c)).lazy == s1.lazy
  {
    var h := s.serverToLocal[id];
    var s0 := s.(world := s.world.Destroy(h.id));
    assert Valid(s0) by {
      forall k | k in s0.serverToLocal ensures Issued(s0.world, s0.serverToLocal[k]) {
        var hk := s0.serverToLocal[k];
        if hk.id == h.id {
          assert hk.gen <= s.world.gen[h.id] < s0.world.gen[h.id];
        }
      }
    }
    DeadHandleStaysDead(s0, msgs, h);
  }

  /** The scenario that aliases bare slot indices: the entity bound to
      `id` is deleted and its slot handed to a new server entity. With
      handles, `id` no longer resolves, `id2` resolves to the reused slot,
      and a component for `id` is dropped and reported. */
  lemma ReusedSlotDoesNotAlias(s: TaggedState, id: EntityId, id2: EntityId, c: NetComponent)
    requires Valid(s) && id in s.serverToLocal && id2 != id
    requires s.world.HandleAlive(s.serverToLocal[id]) && s.world.free == []
    ensures var local := s.serverToLocal[id].id;
            var s0 := s.(world := s.world.Destroy(local));
            Valid(s0) &&
            var s1 := HandleServerMessage(s0, NewEnt(id2));
            && Resolve(s1, id2) == Some(local)
            && Resolve(s1, id).None?
            && HandleServerMessage(s1, InsertComp(id, c)).lazy == s1.lazy
  {
    var h := s.serverToLocal[id];
    StaleHandleNeverWrites(s, id, [NewEnt(id2)], c);
    var s0 := s.(world := s.world.Destroy(h.id));
    assert s0.world.free == [h.id];
    var s1 := HandleServerMessage(s0, NewEnt(id2));
    assert Drain(s0, [NewEnt(id2)]) == Drain(s1, []);
  }
}

=== FILE: ecs.dfy ===
/** The slice of the `specs` entity-component system the replication core
    relies on: the entity allocator (`Entities`), which hands killed slots
    out again under a new generation, and a deferred write log
    (`LazyUpdate`). */
module Ecs {

  type EntityId = nat

  /** A full entity handle, as `specs::Entity` is: a slot index and the
      generation of the slot it was created in. */
  datatype Entity = Entity(id: EntityId, gen: nat)

  /** `live` are the slots whose current entity is alive; `next` is the
      allocator's high-water mark; `free` are killed slots waiting to be
      handed out again, kept as a stack whose top (the last element) is
      the most recently killed; `gen[i]` is slot `i`'s current
      generation. */
  datatype World = World(live: set<EntityId>, next: EntityId, free: seq<EntityId>, gen: seq<nat>) {

    ghost predicate Valid() {
      && (forall e :: e in live ==> e < next)
      && |gen| == next
      && (forall i :: 0 <= i < |free| ==> free[i] < next && free[i] !in live)
      && (forall i, j :: 0 <= i < j < |free| ==> free[i] != free[j])
    }

    /** `ents.is_alive(ents.entity(e))`: rebuilding the handle from a bare
        slot index takes the slot's current generation, so only the slot
        is checked. */
    predicate IsAlive(e: EntityId) {
      e in live
    }

    /** `ents.entity(e)`: the handle of the slot's current generation. */
    function EntityOf(e: EntityId): (h: Entity)
      requires e < |gen|
      ensures h.id == e
    {
      Entity(e, gen[e])
    }

    /** `ents.is_alive(h)` for a full handle: the slot is alive and still
        in the generation the handle was made in. */
    predicate HandleAlive(h: Entity) {
      h.id in live && h.id < |gen| && gen[h.id] == h.gen
    }

    /** `ents.create()`: a killed slot is handed out again if there is
        one, the most recently killed first, otherwise a brand-new slot.
        Either way the entity was not alive, and no generation changes. */
    function Create(): (r: (World, EntityId))
      requires Valid()
      ensures r.1 !in live
      ensures r.0.live == live + {r.1}
      ensures r.0.Valid()
      ensures |free| > 0 ==> r.1 == free[|free| - 1] && r.0.free == free[..|free| - 1] && r.0.next == next
      ensures |free| == 0 ==> r.1 == next && r.0.next == next + 1 && r.0.free == []
      ensures r.1 < r.0.next && next <= r.0.next
      ensures r.0.gen[..next] == gen
    {
      if |free| > 0 then
        (World(live + {free[|free| - 1]}, next, free[..|free| - 1], gen), free[|free| - 1])
      else
        (World(live + {next}, next + 1, [], gen + [0]), next)
    }

    /** Entity deletion (`ents.delete` followed by `maintain`), performed
        by systems outside the core: the slot dies, its generation moves
        on, and it queues up to be handed out again. Deleting a dead slot
        changes nothing. */
    function Destroy(e: EntityId): (w: World)
      requires Valid()
      ensures w.Valid()
      ensures !w.IsAlive(e)
      ensures forall x :: x != e ==> (w.IsAlive(x) <==> IsAlive(x))
      ensures w.next == next
      ensures e in live ==> w.free == free + [e] && w.gen == gen[e := gen[e] + 1]
      ensures e !in live ==> w == this
    {
      if e in live then World(live - {e}, next, free + [e], gen[e := gen[e] + 1])
      else this
    }
  }

  /** One deferred component write scheduled through `LazyUpdate`. */
  datatype Write<C> = Write(ent: EntityId, comp: C)

  /** No two keys share a value. */
  ghost predicate Injective<K, V>(m: map<K, V>) {
    forall k, k' :: k in m && k' in m && k != k' ==> m[k] != m[k']
  }

  /** Every value of `m` is a slot the allocator of `w` has handed out. */
  ghost predicate Allocated<K>(m: map<K, EntityId>, w: World) {
    forall k :: k in m ==> m[k] < w.next
  }
}

=== FILE: inventory.dfy ===
/** The crafting-sim command line: each input line is split into words,
    and `give`, `show` and `q`/`quit` act on a list of held items. */
module CraftCli {
  import opened Wrappers

  newtype u8 = x: int | 0 <= x < 256

  datatype Item = Item(name: string, count: u8)

  /** The items the game knows, as written in the source. */
  const Compendium: seq<string> :=
    ["Blood", "Water", "Circle_Sigil", "Salt", "Cloth", "Broom", "Handle", "Fibers", "Skeleton"]

  // ---------------------------------------------------------------------
  // Words

  /** Unicode White_Space, the set `split_whitespace` splits on. */
  predicate IsWhitespace(c: char) {
    var n := c as int;
    || (0x09 <= n <= 0x0D) || n == 0x20 || n == 0x85 || n == 0xA0
    || n == 0x1680 || (0x2000 <= n <= 0x200A) || n == 0x2028 || n == 0x2029
    || n == 0x202F || n == 0x205F || n == 0x3000
  }

  predicate NoWhitespace(s: string) {
    forall i :: 0 <= i < |s| ==> !IsWhitespace(s[i])
  }

  /** The length of the word `s` starts with. */
  function WordLen(s: string): (n: nat)
    ensures n <= |s|
    ensures NoWhitespace(s[..n])
    ensures n == |s| || IsWhitespace(s[n])
    decreases |s|
  {
    if s == [] || IsWhitespace(s[0]) then 0
    else
      var m := WordLen(s[1..]);
      assert s[..1 + m] == [s[0]] + s[1..][..m];
      1 + m
  }

  /** The maximal runs of non-whitespace characters, in order. */
  function Words(s: string): (ws: seq<string>)
    ensures forall i :: 0 <= i < |ws| ==> |ws[i]| > 0 && NoWhitespace(ws[i])
    decreases |s|
  {
    if s == [] then []
    else if IsWhitespace(s[0]) then Words(s[1..])
    else
      var n := WordLen(s);
      [s[..n]] + Words(s[n..])
  }

  function Concat(ws: seq<string>): string
    decreases |ws|
  {
    if ws == [] then [] else ws[0] + Concat(ws[1..])
  }

  function DropWhitespace(s: string): string
    decreases |s|
  {
    if s == [] then []
    else if IsWhitespace(s[0]) then DropWhitespace(s[1..])
    else [s[0]] + DropWhitespace(s[1..])
  }

  lemma {:induction false} DropWhitespaceAppend(a: string, b: string)
    ensures DropWhitespace(a + b) == DropWhitespace(a) + DropWhitespace(b)
    decreases |a|
  {
    if a != [] {
      assert (a + b)[1..] == a[1..] + b;
      DropWhitespaceAppend(a[1..], b);
    } else {
      assert a + b == b;
    }
  }

  lemma {:induction false} DropWhitespaceOfWord(w: string)
    requires NoWhitespace(w)
    ensures DropWhitespace(w) == w
    decreases |w|
  {
    if w != [] {
      DropWhitespaceOfWord(w[1..]);
      assert w == [w[0]] + w[1..];
    }
  }

  /** Splitting loses exactly the whitespace: the words, put back
      together, are the line with its whitespace removed. */
  lemma {:induction false} WordsLoseOnlyWhitespace(s: string)
    ensures Concat(Words(s)) == DropWhitespace(s)
    decreases |s|
  {
    if s != [] && !IsWhitespace(s[0]) {
      var n := WordLen(s);
      WordsLoseOnlyWhitespace(s[n..]);
      assert s == s[..n] + s[n..];
      DropWhitespaceAppend(s[..n], s[n..]);
      DropWhitespaceOfWord(s[..n]);
      var ws := Words(s);
      assert ws[0] == s[..n] && ws[1..] == Words(s[n..]);
    } else if s != [] {
      WordsLoseOnlyWhitespace(s[1..]);
    }
  }

  // ---------------------------------------------------------------------
  // Numbers

  predicate IsDigit(c: char) {
    '0' <= c <= '9'
  }

  predicate AllDigits(s: string) {
    forall i :: 0 <= i < |s| ==> IsDigit(s[i])
  }

  function DigitsValue(s: string): nat
    requires AllDigits(s)
    decreases |s|
  {
    if s == [] then 0
    else DigitsValue(s[..|s| - 1]) * 10 + (s[|s| - 1] as int - '0' as int)
  }

  /** `str::parse::<u8>`: an optional `+`, then one or more decimal digits
      whose value fits in eight bits. */
  function ParseU8(w: string): (r: Option<u8>)
    ensures r.Some? ==> |w| > 0 && (IsDigit(w[0]) || w[0] == '+')
    ensures r.Some? ==> forall i :: 1 <= i < |w| ==> IsDigit(w[i])
    ensures (|w| > 0 && IsDigit(w[0])) ==> (r.Some? <==> AllDigits(w) && DigitsValue(w) < 256)
    ensures var d := if |w| > 0 && w[0] == '+' then w[1..] else w;
      && (r.Some? <==> |d| > 0 && AllDigits(d) && DigitsValue(d) < 256)
      && (r.Some? ==> r.value as int == DigitsValue(d))
  {
    var digits := if |w| > 0 && w[0] == '+' then w[1..] else w;
    if |digits| == 0 || !AllDigits(digits) then None
    else if DigitsValue(digits) > 255 then None
    else Some(DigitsValue(digits) as u8)
  }

  /** Decimal rendering, the form `show` prints counts in. */
  function ShowNat(n: nat): (s: string)
    ensures |s| > 0 && AllDigits(s)
    decreases n
  {
    var d := ['0' + (n % 10) as char];
    if n < 10 then d else ShowNat(n / 10) + d
  }

  lemma {:induction false} ShowNatValue(n: nat)
    ensures DigitsValue(ShowNat(n)) == n
    decreases n
  {
    var s := ShowNat(n);
    if n >= 10 {
      ShowNatValue(n / 10);
      assert s[..|s| - 1] == ShowNat(n / 10);
    }
  }

  /** Every count round-trips through its decimal form, with or without
      a leading `+`. */
  lemma ParseShow(n: u8)
    ensures ParseU8(ShowNat(n as nat)) == Some(n)
    ensures ParseU8("+" + ShowNat(n as nat)) == Some(n)
  {
    ShowNatValue(n as nat);
    assert ("+" + ShowNat(n as nat))[1..] == ShowNat(n as nat);
  }

  // ---------------------------------------------------------------------
  // Names

  /** Lower-casing of one character, for every character whose lower
      case is a single ASCII character: A-Z and the Kelvin sign. */
  function LowerChar(c: char): char {
    if 'A' <= c <= 'Z' then (c as int + 32) as char
    else if c as int == 0x212A then 'k'
    else c
  }

  function Lower(s: string): (r: string)
    ensures |r| == |s| && forall i :: 0 <= i < |s| ==> r[i] == LowerChar(s[i])
  {
    seq(|s|, i requires 0 <= i < |s| => LowerChar(s[i]))
  }

  /** The compendium as the `give` command compares against it. */
  function Known(): (ks: seq<string>)
    ensures |ks| == |Compendium|
    ensures forall i :: 0 <= i < |ks| ==> ks[i] == Lower(Compendium[i])
  {
    seq(|Compendium|, i requires 0 <= i < |Compendium| => Lower(Compendium[i]))
  }

  lemma LowerIdempotent(s: string)
    ensures Lower(Lower(s)) == Lower(s)
  {
  }

  predicate IsK(c: char) {
    c == 'k' || c == 'K' || c as int == 0x212A
  }

  /** The same letter up to case: an upper-case ASCII letter sits 32 code
      points below its lower case, and the Kelvin sign is a capital K. */
  predicate SameLetter(a: char, b: char) {
    || a == b
    || ('A' <= a <= 'Z' && b as int == a as int + 32)
    || ('A' <= b <= 'Z' && a as int == b as int + 32)
    || (IsK(a) && IsK(b))
  }

  /** Equal up to case, character by character. */
  predicate EqIgnoringCase(s: string, n: string) {
    |s| == |n| && forall i :: 0 <= i < |s| ==> SameLetter(s[i], n[i])
  }

  lemma SameLetterIffLowerEqual(a: char, b: char)
    ensures LowerChar(a) == LowerChar(b) <==> SameLetter(a, b)
  {
  }

  /** Comparing lower-cased names is comparing names ignoring case. */
  lemma LowerMatchesIgnoringCase(s: string, n: string)
    ensures Lower(s) == Lower(n) <==> EqIgnoringCase(s, n)
  {
    if |s| == |n| {
      forall i | 0 <= i < |s| ensures LowerChar(s[i]) == LowerChar(n[i]) <==> SameLetter(s[i], n[i]) {
        SameLetterIffLowerEqual(s[i], n[i]);
      }
      if EqIgnoringCase(s, n) {
        assert forall i :: 0 <= i < |s| ==> Lower(s)[i] == Lower(n)[i];
      } else {
        var i :| 0 <= i < |s| && !SameLetter(s[i], n[i]);
        assert Lower(s)[i] != Lower(n)[i];
      }
    }
  }

  lemma LowerExample()
    ensures Lower("WaTeR") == "water"
  {
  }

  /** The names `give` accepts, as it stores them. */
  lemma KnownNames()
    ensures Known() == ["blood", "water", "circle_sigil", "salt", "cloth", "broom", "handle", "fibers", "skeleton"]
  {
    var ks := Known();
    assert ks[0] == Lower("Blood") == "blood";
    assert ks[1] == Lower("Water") == "water";
    assert ks[2] == Lower("Circle_Sigil") == "circle_sigil";
    assert ks[3] == Lower("Salt") == "salt";
    assert ks[4] == Lower("Cloth") == "cloth";
    assert ks[5] == Lower("Broom") == "broom";
    assert ks[6] == Lower("Handle") == "handle";
    assert ks[7] == Lower("Fibers") == "fibers";
    assert ks[8] == Lower("Skeleton") == "skeleton";
  }

  /** A name is known exactly when it equals some compendium entry up to
      case. */
  lemma KnownIgnoresCase(n: string)
    ensures Lower(n) in Known() <==> exists i :: 0 <= i < |Compendium| && EqIgnoringCase(n, Compendium[i])
  {
    forall i | 0 <= i < |Compendium|
      ensures Lower(n) == Known()[i] <==> EqIgnoringCase(n, Compendium[i])
    {
      LowerMatchesIgnoringCase(n, Compendium[i]);
    }
  }

  // ---------------------------------------------------------------------
  // The inventory

  type Inventory = seq<Item>

  predicate Holds(inv: Inventory, name: string) {
    exists i :: 0 <= i < |inv| && inv[i].name == name
  }

  ghost predicate UniqueNames(inv: Inventory) {
    forall i, j :: 0 <= i < j < |inv| ==> inv[i].name != inv[j].name
  }

  /** A merge that would take a count past 255: the debug build's
      arithmetic-overflow panic. */
  datatype Overflow = CountOverflow(name: string)

  /** Adds `count` to every item called `name`. */
  function AddToMatches(inv: Inventory, name: string, count: u8): (r: Result<Inventory, Overflow>)
    ensures r.Failure? <==> exists i :: 0 <= i < |inv| && inv[i].name == name && inv[i].count as int + count as int > 255
    ensures r.Success? ==> |r.value| == |inv|
    ensures r.Success? ==> forall i :: 0 <= i < |inv| ==>
      r.value[i].name == inv[i].name &&
      r.value[i].count as int == inv[i].count as int + (if inv[i].name == name then count as int else 0)
    decreases |inv|
  {
    if inv == [] then Success([])
    else
      var head := inv[0];
      if head.name == name && head.count as int + count as int > 255 then Failure(CountOverflow(name))
      else
        var newHead := if head.name == name then head.(count := head.count + count) else head;
        match AddToMatches(inv[1..], name, count)
        case Failure(e) =>
          assert exists i :: 1 <= i < |inv| && inv[i].name == name && inv[i].count as int + count as int > 255 by {
            var j :| 0 <= j < |inv| - 1 && inv[1..][j].name == name && inv[1..][j].count as int + count as int > 255;
            assert inv[j + 1] == inv[1..][j];
          }
          Failure(e)
        case Success(rest) =>
          var r := [newHead] + rest;
          assert forall i :: 1 <= i < |inv| ==> inv[i] == inv[1..][i - 1] && r[i] == rest[i - 1];
          Success(r)
  }

  /** The merge inside `give`: an item already held gains the count, and
      a new one is appended. */
  function Merge(inv: Inventory, name: string, count: u8): (r: Result<Inventory, Overflow>)
    ensures !Holds(inv, name) ==> r == Success(inv + [Item(name, count)])
    ensures Holds(inv, name) ==> r == AddToMatches(inv, name, count)
  {
    if Holds(inv, name) then AddToMatches(inv, name, count)
    else Success(inv + [Item(name, count)])
  }

  /** Merging keeps names unique; for a held name the one entry that has
      it gains the count and the list keeps its length and order. */
  lemma MergeKeepsUnique(inv: Inventory, name: string, count: u8)
    requires UniqueNames(inv)
    requires Merge(inv, name, count).Success?
    ensures UniqueNames(Merge(inv, name, count).value)
    ensures Holds(Merge(inv, name, count).value, name)
  {
    var r := Merge(inv, name, count).value;
    if !Holds(inv, name) {
      assert r[|inv|].name == name;
    } else {
      var i :| 0 <= i < |inv| && inv[i].name == name;
      assert r[i].name == name;
    }
  }

  /** The arguments of `give`: a first argument that parses as a count is
      the count and the next word the name; otherwise the count is 1 and
      the first argument the name. A missing name is the empty one. */
  function GiveArgs(args: seq<string>): (r: (string, u8))
    ensures |args| == 0 ==> r == ("", 1)
    ensures |args| > 0 && ParseU8(args[0]).None? ==> r == (args[0], 1)
    ensures |args| > 0 && ParseU8(args[0]).Some? ==>
      r.1 == ParseU8(args[0]).value && r.0 == (if |args| > 1 then args[1] else "")
  {
    if |args| == 0 then ("", 1)
    else match ParseU8(args[0])
      case Some(n) => (if |args| > 1 then args[1] else "", n)
      case None => (args[0], 1)
  }

  /** `give`: an unknown (or empty) name changes nothing; a known one is
      merged under its lower-case spelling. */
  function Give(inv: Inventory, args: seq<string>): (r: Result<Inventory, Overflow>)
    ensures Lower(GiveArgs(args).0) !in Known() ==> r == Success(inv)
    ensures Lower(GiveArgs(args).0) in Known() ==> r == Merge(inv, Lower(GiveArgs(args).0), GiveArgs(args).1)
  {
    var (name, count) := GiveArgs(args);
    var lname := Lower(name);
    if lname in Known() then Merge(inv, lname, count) else Success(inv)
  }

  /** What one input line leads to. */
  datatype Outcome = Continue(inv: Inventory) | Quit(inv: Inventory) | Panicked(error: Overflow)

  /** The line is a `q` or `quit` command. */
  predicate IsQuit(line: string) {
    var words := Words(line);
    |words| > 0 && (words[0] == "q" || words[0] == "quit")
  }

  /** The loop body for one line of input. */
  function HandleLine(inv: Inventory, line: string): (r: Outcome)
    ensures r.Continue? || r.Quit? ==> r.inv == inv || (|Words(line)| > 0 && Words(line)[0] == "give")
    ensures r.Quit? <==> IsQuit(line)
    ensures r.Panicked? ==> |Words(line)| > 0 && Words(line)[0] == "give"
  {
    var words := Words(line);
    if |words| == 0 then Continue(inv)
    else if words[0] == "give" then
      match Give(inv, words[1..])
      case Success(inv') => Continue(inv')
      case Failure(e) => Panicked(e)
    else if words[0] == "q" || words[0] == "quit" then Quit(inv)
    else Continue(inv) // `show` prints the inventory; anything else is refused
  }

  /** Every held name is a lower-case compendium name. */
  ghost predicate WellFormed(inv: Inventory) {
    UniqueNames(inv) && forall i :: 0 <= i < |inv| ==> inv[i].name in Known()
  }

  /** Each line keeps the inventory well formed. */
  lemma HandleLineKeepsWellFormed(inv: Inventory, line: string)
    requires WellFormed(inv)
    ensures var r := HandleLine(inv, line); r.Continue? || r.Quit? ==> WellFormed(r.inv)
  {
    var words := Words(line);
    if |words| > 0 && words[0] == "give" {
      var (name, count) := GiveArgs(words[1..]);
      var lname := Lower(name);
      if lname in Known() && Merge(inv, lname, count).Success? {
        MergeKeepsUnique(inv, lname, count);
        var r := Merge(inv, lname, count).value;
        forall i | 0 <= i < |r| ensures r[i].name in Known() {
          if i < |inv| { assert r[i].name == inv[i].name; }
        }
      }
    }
  }

  /** A session: lines are handled in order until one quits or panics, or
      the input ends. */
  function Session(inv: Inventory, lines: seq<string>): (r: Outcome)
    ensures r.Continue? ==> forall i :: 0 <= i < |lines| ==> !IsQuit(lines[i])
    ensures r.Quit? ==> exists i :: 0 <= i < |lines| && IsQuit(lines[i])
    decreases |lines|
  {
    if lines == [] then Continue(inv)
    else
      match HandleLine(inv, lines[0])
      case Continue(inv') =>
        var r := Session(inv', lines[1..]);
        assert forall i :: 1 <= i < |lines| ==> lines[i] == lines[1..][i - 1];
        assert r.Quit? ==> exists i :: 0 <= i < |lines| && IsQuit(lines[i]) by {
          if r.Quit? {
            var j :| 0 <= j < |lines| - 1 && IsQuit(lines[1..][j]);
            assert lines[j + 1] == lines[1..][j];
          }
        }
        r
      case other => other
  }

  /** The first quitting line ends the session: nothing after it is
      read. */
  lemma {:induction false} QuitEndsSession(inv: Inventory, pre: seq<string>, q: string, post: seq<string>)
    requires IsQuit(q)
    ensures Session(inv, pre + [q] + post) == Session(inv, pre + [q])
    decreases |pre|
  {
    if pre == [] {
      assert ([q] + post)[1..] == post;
      assert ([q] + post)[0] == q && [q][0] == q;
    } else {
      assert (pre + [q] + post)[0] == pre[0] && (pre + [q])[0] == pre[0];
      assert (pre + [q] + post)[1..] == pre[1..] + [q] + post;
      assert (pre + [q])[1..] == pre[1..] + [q];
      match HandleLine(inv, pre[0])
      case Continue(inv') => QuitEndsSession(inv', pre[1..], q, post);
      case _ =>
    }
  }

  /** Every session that does not panic ends with a well-formed
      inventory. */
  lemma {:induction false} SessionKeepsWellFormed(inv: Inventory, lines: seq<string>)
    requires WellFormed(inv)
    ensures var r := Session(inv, lines); r.Continue? || r.Quit? ==> WellFormed(r.inv)
    decreases |lines|
  {
    if lines != [] {
      HandleLineKeepsWellFormed(inv, lines[0]);
      match HandleLine(inv, lines[0])
      case Continue(inv') => SessionKeepsWellFormed(inv', lines[1..]);
      case _ =>
    }
  }

  /** Giving a held item: nothing is added, and exactly its entry gains
      the count. */
  lemma GiveHeld(inv: Inventory, name: string, count: u8, i: nat)
    requires UniqueNames(inv)
    requires i < |inv| && inv[i].name == name
    requires inv[i].count as int + count as int <= 255
    ensures Merge(inv, name, count).Success?
    ensures var r := Merge(inv, name, count).value;
      && |r| == |inv|
      && r[i] == Item(name, inv[i].count + count)
      && (forall j :: 0 <= j < |inv| && j != i ==> r[j] == inv[j])
  {
    assert Holds(inv, name);
  }

  lemma {:induction false} WordLenOfWord(w: string, rest: string)
    requires NoWhitespace(w)
    requires rest == [] || IsWhitespace(rest[0])
    ensures WordLen(w + rest) == |w|
    decreases |w|
  {
    if w != [] {
      assert (w + rest)[1..] == w[1..] + rest;
      WordLenOfWord(w[1..], rest);
    } else {
      assert w + rest == rest;
    }
  }

  /** A word followed by a space splits off as the first word. */
  lemma WordsCons(w: string, rest: string)
    requires |w| > 0 && NoWhitespace(w)
    ensures Words(w + " " + rest) == [w] + Words(rest)
  {
    var line := w + " " + rest;
    assert line == w + (" " + rest);
    WordLenOfWord(w, " " + rest);
    assert line[..|w|] == w;
    assert line[|w|..] == " " + rest;
    assert (" " + rest)[1..] == rest;
  }

  lemma WordsSingle(w: string)
    requires |w| > 0 && NoWhitespace(w)
    ensures Words(w) == [w]
  {
    WordLenOfWord(w, []);
    assert w + [] == w;
  }

  /** `give N name` for a known name not yet held appends one entry with
      count N under the lower-case name. */
  lemma GiveNewByLine(inv: Inventory, n: u8, name: string)
    requires |name| > 0 && NoWhitespace(name)
    requires Lower(name) in Known() && !Holds(inv, Lower(name))
    ensures HandleLine(inv, "give " + ShowNat(n as nat) + " " + name) == Continue(inv + [Item(Lower(name), n)])
  {
    var digits := ShowNat(n as nat);
    assert NoWhitespace(digits);
    assert NoWhitespace("give");
    WordsSingle(name);
    WordsCons(digits, name);
    assert "give " + digits + " " + name == "give" + " " + (digits + " " + name);
    WordsCons("give", digits + " " + name);
    ParseShow(n);
    var words := Words("give " + digits + " " + name);
    assert words == ["give", digits, name];
    assert words[1..] == [digits, name];
  }

  /** `give` with no argument, and `give N` with no name, change
      nothing. */
  lemma GiveWithoutName(inv: Inventory, args: seq<string>)
    requires |args| == 0 || (|args| == 1 && ParseU8(args[0]).Some?)
    ensures Give(inv, args) == Success(inv)
  {
    assert Lower("") == "";
    assert forall i :: 0 <= i < |Known()| ==> |Known()[i]| > 0;
  }
}

=== FILE: replication.dfy ===
/** Properties that span both ends of a connection: what the client's
    translator makes of the server's welcome snapshot, and where the
    server puts the components a client sends. */
module Replication {
  import opened Ecs
  import opened Comn
  import opened DegenNet
  import opened AdminNet
  import opened AdminPackets
  import opened AdminLogin

  /** The server ids a message sequence announces. */
  function AnnouncedIds(msgs: seq<NetMessage>): set<EntityId> {
    set m | m in msgs && m.NewEnt? :: m.id
  }

  /** After a drain, every server id announced in it is bound to a live
      local entity, no other id gained a binding, and the bindings of ids
      not announced are untouched. */
  lemma {:induction false} DrainBindsAnnounced(s: ClientState, msgs: seq<NetMessage>)
    requires DegenNet.Valid(s)
    ensures var r := Drain(s, msgs);
      && r.serverToLocalIds.Keys == s.serverToLocalIds.Keys + AnnouncedIds(msgs)
      && (forall id :: id in AnnouncedIds(msgs) ==> r.world.IsAlive(r.serverToLocalIds[id]))
      && (forall id :: id in s.serverToLocalIds && id !in AnnouncedIds(msgs) ==>
            r.serverToLocalIds[id] == s.serverToLocalIds[id])
    decreases |msgs|
  {
    if msgs != [] {
      var s1 := HandleServerMessage(s, msgs[0]);
      var rest := msgs[1..];
      DrainBindsAnnounced(s1, rest);
      assert msgs == [msgs[0]] + rest;
      assert AnnouncedIds(msgs) == AnnouncedIds([msgs[0]]) + AnnouncedIds(rest);
      var r := Drain(s, msgs);
      assert r == Drain(s1, rest);
      forall id | id in AnnouncedIds(msgs)
        ensures r.world.IsAlive(r.serverToLocalIds[id])
      {
        if id !in AnnouncedIds(rest) {
          assert msgs[0] == NewEnt(id);
          assert s1.world.IsAlive(s1.serverToLocalIds[id]);
        }
      }
    }
  }

  /** No deferred write in `lu` is a camera. */
  ghost predicate CameraFree(lu: seq<Write<Component>>) {
    forall i :: 0 <= i < |lu| ==> lu[i].comp != CameraComp
  }

  /** A camera message on top of a camera-free client state is written
      exactly when its id resolves to a live entity. */
  lemma CameraResolves(mid: ClientState, e: EntityId)
    requires DegenNet.Valid(mid) && CameraFree(mid.lazy)
    ensures var r := HandleServerMessage(mid, InsertComp(e, Camera));
      (e in mid.serverToLocalIds && mid.world.IsAlive(mid.serverToLocalIds[e]) <==>
         |r.lazy| > 0 && r.lazy[|r.lazy| - 1].comp == CameraComp)
    ensures var r := HandleServerMessage(mid, InsertComp(e, Camera));
      e in mid.serverToLocalIds && mid.world.IsAlive(mid.serverToLocalIds[e]) ==>
        r.serverToLocalIds == mid.serverToLocalIds && r.lazy[|r.lazy| - 1].ent == mid.serverToLocalIds[e]
  {
  }

  /** A freshly connected client that drains its welcome gets the
      `Camera` exactly when the server announced the client's own entity,
      that is, when it is live and has a position on the server; the camera
      then lands on the local entity that server id is bound to.
      Otherwise the camera message is dropped and reported. */
  lemma CameraLandsIffOwnEntityAnnounced(
    cs: ClientState, s: ServerState, positions: Positions, appearances: Appearances, addr: Addr)
    requires DegenNet.Valid(cs) && cs.serverToLocalIds == map[] && CameraFree(cs.lazy)
    requires s.world.Valid() && addr in s.addrToEnt
    ensures var welcome := Welcome(s, addr, positions, appearances).value;
      var e := s.addrToEnt[addr];
      var r := Drain(cs, welcome);
      (e in s.world.live && e in positions <==>
         |r.lazy| > 0 && r.lazy[|r.lazy| - 1].comp == CameraComp)
    ensures var welcome := Welcome(s, addr, positions, appearances).value;
      var e := s.addrToEnt[addr];
      var r := Drain(cs, welcome);
      e in s.world.live && e in positions ==>
        && e in r.serverToLocalIds && r.world.IsAlive(r.serverToLocalIds[e])
        && |r.lazy| > 0 && r.lazy[|r.lazy| - 1].ent == r.serverToLocalIds[e]
  {
    var welcome := Welcome(s, addr, positions, appearances).value;
    var e := s.addrToEnt[addr];
    var snap := Snapshot(s.world.live, positions, appearances, 0, s.world.next);
    var cam := InsertComp(e, Camera);
    assert welcome == snap + [cam];
    var mid := Drain(cs, snap);
    DrainLast(cs, snap, cam);
    DrainBindsAnnounced(cs, snap);
    SnapshotAnnounces(s.world.live, positions, appearances, 0, s.world.next, e);
    assert e in AnnouncedIds(snap) <==> NewEnt(e) in snap;
    SnapshotHasNoCamera(s.world.live, positions, appearances, 0, s.world.next);
    CameraFreeDrain(cs, snap);
    CameraResolves(mid, e);
  }

  /** Draining one more message is one more step. */
  lemma DrainLast(s: ClientState, msgs: seq<NetMessage>, m: NetMessage)
    requires DegenNet.Valid(s)
    ensures Drain(s, msgs + [m]) == HandleServerMessage(Drain(s, msgs), m)
  {
    DrainAppend(s, msgs, [m]);
    var mid := Drain(s, msgs);
    assert Drain(mid, [m]) == Drain(HandleServerMessage(mid, m), []);
  }

  /** No message of a snapshot carries a camera. */
  lemma {:induction false} SnapshotHasNoCamera(
    live: set<EntityId>, positions: Positions, appearances: Appearances, from: nat, to: nat)
    ensures forall m :: m in Snapshot(live, positions, appearances, from, to) ==>
      m.NewEnt? || !m.comp.Camera?
    decreases (to as int) - (from as int)
  {
    if from < to {
      SnapshotHasNoCamera(live, positions, appearances, from + 1, to);
    }
  }

  /** Draining messages none of which carries a camera schedules no camera. */
  lemma {:induction false} CameraFreeDrain(s: ClientState, msgs: seq<NetMessage>)
    requires DegenNet.Valid(s) && CameraFree(s.lazy)
    requires forall m :: m in msgs ==> m.NewEnt? || !m.comp.Camera?
    ensures CameraFree(Drain(s, msgs).lazy)
    decreases |msgs|
  {
    if msgs != [] {
      assert msgs[0] in msgs;
      var s1 := HandleServerMessage(s, msgs[0]);
      assert CameraFree(s1.lazy);
      forall m | m in msgs[1..] ensures m.NewEnt? || !m.comp.Camera? {
        assert m in msgs;
      }
      CameraFreeDrain(s1, msgs[1..]);
    }
  }

  /** A component a client sends reaches the server aimed at id 0 and is
      written on the sender's own entity, whatever the id says. */
  lemma ClientComponentLandsOnOwnEntity(s: ServerState, addr: Addr, sent: seq<NetMessage>, c: NetComponent)
    requires AdminNet.Valid(s) && addr in s.addrToEnt && s.world.IsAlive(s.addrToEnt[addr])
    ensures var out := SendInsertComp(sent, c);
      HandleClientPacket(s, addr, out[|out| - 1]) ==
        Wrappers.Success(s.(lazy := s.lazy + [Write(s.addrToEnt[addr], ToComponent(c))]))
  {
  }
}

=== FILE: shooter_controls.dfy ===
/** The shooter's keyboard handling (`Controls`): key events are filtered
    into a key map, and once per frame the map yields a movement direction
    and the shoot flag. */
module ShooterControls {
  import opened Wrappers
  import opened ShooterPrelude

  /** A browser key event: the key name, press or release, and whether it
      is an auto-repeat. */
  datatype KeyEvent = KeyEvent(key: string, down: bool, repeat: bool)

  type KeyMap = map<char, bool>

  /** The listener's `expect` on a key name without a first character. */
  datatype KeyPanic = ZeroLengthKeyName

  /** Lower-casing of one character, for the ASCII range. */
  function ToLower(c: char): char {
    if 'A' <= c <= 'Z' then (c as int + 32) as char else c
  }

  /** The keys the game listens to. */
  predicate Tracked(c: char) {
    c in "wsad,"
  }

  /** The event changes the entry of `c`. */
  predicate Affects(e: KeyEvent, c: char) {
    !e.repeat && |e.key| > 0 && ToLower(e.key[0]) == c && Tracked(c)
  }

  /** The key listener: repeats are ignored; otherwise the lower-cased
      first character of the key name is recorded as pressed or released
      when it is one the game tracks. */
  function HandleKeyEvent(keys: KeyMap, e: KeyEvent): (r: Result<KeyMap, KeyPanic>)
    ensures r.Failure? <==> !e.repeat && |e.key| == 0
    ensures r.Success? ==> forall c :: c in r.value ==> c in keys || Affects(e, c)
    ensures r.Success? ==> forall c :: Affects(e, c) ==> c in r.value && r.value[c] == e.down
    ensures r.Success? ==> forall c :: c in keys && !Affects(e, c) ==> c in r.value && r.value[c] == keys[c]
  {
    if e.repeat then Success(keys)
    else if |e.key| == 0 then Failure(ZeroLengthKeyName)
    else
      var first := ToLower(e.key[0]);
      if Tracked(first) then Success(keys[first := e.down]) else Success(keys)
  }

  /** A sequence of events, in the order they were dispatched. */
  function HandleKeyEvents(keys: KeyMap, events: seq<KeyEvent>): (r: Result<KeyMap, KeyPanic>)
    ensures r.Failure? <==> exists i :: 0 <= i < |events| && !events[i].repeat && |events[i].key| == 0
    decreases |events|
  {
    if events == [] then Success(keys)
    else
      match HandleKeyEvent(keys, events[0])
      case Failure(p) => Failure(p)
      case Success(k1) =>
        var r := HandleKeyEvents(k1, events[1..]);
        assert r.Failure? <==> exists i :: 1 <= i < |events| && !events[i].repeat && |events[i].key| == 0 by {
          if r.Failure? {
            var j :| 0 <= j < |events| - 1 && !events[1..][j].repeat && |events[1..][j].key| == 0;
            assert events[j + 1] == events[1..][j];
          } else {
            forall i | 1 <= i < |events| ensures events[i].repeat || |events[i].key| > 0 {
              assert events[i] == events[1..][i - 1];
            }
          }
        }
        r
  }

  /** Whether the last event affecting `c`, if any, was a press. */
  function LastFor(events: seq<KeyEvent>, c: char): Option<bool>
    decreases |events|
  {
    if events == [] then None
    else
      match LastFor(events[1..], c)
      case Some(b) => Some(b)
      case None => if Affects(events[0], c) then Some(events[0].down) else None
  }

  /** Only tracked keys are ever recorded, and each records the state its
      most recent non-repeat event left it in. */
  lemma {:induction false} LastEventWins(keys: KeyMap, events: seq<KeyEvent>, c: char)
    requires HandleKeyEvents(keys, events).Success?
    ensures var r := HandleKeyEvents(keys, events).value;
      && (c in r ==> c in keys || Tracked(c))
      && (LastFor(events, c).Some? ==> c in r && r[c] == LastFor(events, c).value)
      && (LastFor(events, c).None? ==> (c in r <==> c in keys) && (c in keys ==> r[c] == keys[c]))
    decreases |events|
  {
    if events != [] {
      var k1 := HandleKeyEvent(keys, events[0]).value;
      LastEventWins(k1, events[1..], c);
    }
  }

  /** A direction with integer components. */
  datatype Dir2 = Dir2(x: int, y: int)

  /** What one entry of the key map adds to the movement: `w`, `s`, `a`,
      `d` held down go up, down, left and right (screen y grows downwards);
      anything else adds nothing. */
  function Contribution(c: char, down: bool): Dir2 {
    if !down then Dir2(0, 0)
    else if c == 'w' then Dir2(0, -1)
    else if c == 's' then Dir2(0, 1)
    else if c == 'a' then Dir2(-1, 0)
    else if c == 'd' then Dir2(1, 0)
    else Dir2(0, 0)
  }

  function Held(keys: KeyMap, c: char): int {
    if c in keys && keys[c] then 1 else 0
  }

  /** The movement the held keys ask for, independent of any order. */
  function Direction(keys: KeyMap): Dir2 {
    Dir2(Held(keys, 'd') - Held(keys, 'a'), Held(keys, 's') - Held(keys, 'w'))
  }

  /** The source's `fold` over the key map, in its iteration order. */
  function FoldKeys(keys: KeyMap, order: seq<char>): Dir2
    requires forall i :: 0 <= i < |order| ==> order[i] in keys
    decreases |order|
  {
    if order == [] then Dir2(0, 0)
    else
      var last := order[|order| - 1];
      var acc := FoldKeys(keys, order[..|order| - 1]);
      var d := Contribution(last, keys[last]);
      Dir2(acc.x + d.x, acc.y + d.y)
  }

  /** `Held`, restricted to the keys the fold has visited so far. */
  function HeldIn(keys: KeyMap, order: seq<char>, c: char): int {
    if c in order && c in keys && keys[c] then 1 else 0
  }

  /** Visiting one more key changes only that key's count. */
  lemma HeldInSnoc(keys: KeyMap, pre: seq<char>, last: char, c: char)
    requires last in keys && last !in pre
    ensures HeldIn(keys, pre + [last], c) ==
      HeldIn(keys, pre, c) + (if c == last && keys[last] then 1 else 0)
  {
    assert c in pre + [last] <==> c in pre || c == last;
  }

  lemma {:induction false} FoldCounts(keys: KeyMap, order: seq<char>)
    requires forall i :: 0 <= i < |order| ==> order[i] in keys
    requires Distinct(order)
    ensures FoldKeys(keys, order) ==
      Dir2(HeldIn(keys, order, 'd') - HeldIn(keys, order, 'a'),
           HeldIn(keys, order, 's') - HeldIn(keys, order, 'w'))
    decreases |order|
  {
    if order != [] {
      var pre := order[..|order| - 1];
      var last := order[|order| - 1];
      FoldCounts(keys, pre);
      assert order == pre + [last];
      assert last !in pre;
      HeldInSnoc(keys, pre, last, 'd');
      HeldInSnoc(keys, pre, last, 'a');
      HeldInSnoc(keys, pre, last, 's');
      HeldInSnoc(keys, pre, last, 'w');
    }
  }

  /** Folding over any duplicate-free listing of the key map gives the
      same direction: the map's iteration order does not matter. */
  lemma FoldIsDirection(keys: KeyMap, order: seq<char>)
    requires forall i :: 0 <= i < |order| ==> order[i] in keys
    requires forall c :: c in keys ==> c in order
    requires Distinct(order)
    ensures FoldKeys(keys, order) == Direction(keys)
  {
    FoldCounts(keys, order);
  }

  /** What one frame of `Controls::update` yields: whether to shoot, and
      the direction the player's position moves in (by 0.2 per unit), if
      it moves at all. */
  datatype Intent = Intent(shoot: bool, step: Option<Dir2>)

  /** `Controls::update`. `contended` is a failed `try_lock` on the key
      map; `order` is the map's iteration order. */
  function Update(keys: KeyMap, order: seq<char>, contended: bool): (r: Intent)
    requires forall i :: 0 <= i < |order| ==> order[i] in keys
    requires forall c :: c in keys ==> c in order
    requires Distinct(order)
    ensures contended ==> r == Intent(false, None)
    ensures !contended ==> (r.shoot <==> ',' in keys && keys[','])
    ensures !contended && |keys| == 0 ==> r.step == None
    ensures !contended && |keys| > 0 ==> r.step == Some(Direction(keys))
  {
    if contended then Intent(false, None)
    else
      var step := if |keys| > 0 then Some(FoldKeys(keys, order)) else None;
      FoldIsDirection(keys, order);
      Intent(if ',' in keys then keys[','] else false, step)
  }
}

=== FILE: shooter_enemy.dfy ===
/** Value types of the 2D shooter. Vectors, isometries and boxes are
    carried as opaque values: the model never does geometry with them. */
module ShooterPrelude {

  /** No element appears twice, as in the key order of a map. */
  predicate Distinct<T(==)>(s: seq<T>) {
    forall i, j :: 0 <= i < j < |s| ==> s[i] != s[j]
  }

  datatype Vec2 = Vec2(x: real, y: real)
  datatype Iso2 = Iso2(translation: Vec2, angle: real)
  datatype Cuboid = Cuboid(halfExtents: Vec2)
}

/** The shooter's `Enemy`: a health counter and a cyclic route of
    waypoints. */
module ShooterEnemy {
  import opened Wrappers
  import opened ShooterPrelude

  datatype Enemy = Enemy(route: seq<Vec2>, health: nat, goal: nat)

  /** The waypoint being headed for exists. */
  predicate OnRoute(e: Enemy) {
    e.goal < |e.route|
  }

  /** `Enemy::new`: heads for the first waypoint. */
  function New(route: seq<Vec2>, health: nat): (e: Enemy)
    ensures e.route == route && e.health == health && e.goal == 0
    ensures |route| > 0 ==> OnRoute(e)
  {
    Enemy(route, health, 0)
  }

  /** The `usize` subtraction in `Enemy::damage` going below zero. */
  datatype Underflow = HealthUnderflow

  /** `Enemy::damage` as written: one hit takes one health point, and the
      flag reports whether none is left. At zero health the subtraction
      underflows. */
  function DamageAsWritten(e: Enemy): (r: Result<(Enemy, bool), Underflow>)
    ensures r.Failure? <==> e.health == 0
    ensures r.Success? ==> r.value.0 == e.(health := e.health - 1)
    ensures r.Success? ==> (r.value.1 <==> e.health == 1)
  {
    if e.health == 0 then Failure(HealthUnderflow)
    else
      var hurt := e.(health := e.health - 1);
      Success((hurt, hurt.health == 0))
  }

  /** `Enemy::damage` as intended: the subtraction saturates at zero, so
      an enemy that is already dead stays dead and is reported dead
      again. Wherever the source does not underflow the two agree. */
  function Damage(e: Enemy): (r: (Enemy, bool))
    ensures r.0 == e.(health := if e.health > 0 then e.health - 1 else 0)
    ensures r.1 <==> e.health <= 1
    ensures e.health > 0 ==> DamageAsWritten(e) == Success(r)
  {
    var hurt := e.(health := if e.health > 0 then e.health - 1 else 0);
    (hurt, hurt.health == 0)
  }

  /** The hits one enemy takes in one frame of the game loop: `n` bullets
      overlap it, and it is marked dead if any hit reports death. */
  function FrameAsWritten(e: Enemy, n: nat): Result<(Enemy, bool), Underflow>
    decreases n
  {
    if n == 0 then Success((e, false))
    else
      match DamageAsWritten(e)
      case Failure(u) => Failure(u)
      case Success((e1, dead)) =>
        match FrameAsWritten(e1, n - 1)
        case Failure(u) => Failure(u)
        case Success((e2, dead2)) => Success((e2, dead || dead2))
  }

  /** The same frame with the saturating `Damage`. */
  function Frame(e: Enemy, n: nat): (Enemy, bool)
    decreases n
  {
    if n == 0 then (e, false)
    else
      var (e1, dead) := Damage(e);
      var (e2, dead2) := Frame(e1, n - 1);
      (e2, dead || dead2)
  }

  /** Two bullets landing on an enemy with one health point left in the
      same frame: the second hit underflows as written, while the
      saturating version marks the enemy dead. */
  lemma SecondHitOnLastPointUnderflows(e: Enemy)
    requires e.health == 1
    ensures FrameAsWritten(e, 2).Failure?
    ensures Frame(e, 2) == (e.(health := 0), true)
  {
    assert DamageAsWritten(e) == Success((e.(health := 0), true));
  }

  /** A frame's hits mark the enemy dead exactly when they reach its
      health (an enemy at zero health is dead at the first hit), health
      never drops below zero, and the source runs without underflow
      exactly when the hits do not exceed the health, agreeing then with
      the saturating version. */
  lemma {:induction false} FrameKills(e: Enemy, n: nat)
    ensures Frame(e, n).1 <==> n > 0 && n >= e.health
    ensures Frame(e, n).0 == e.(health := if e.health >= n then e.health - n else 0)
    ensures FrameAsWritten(e, n).Success? <==> n <= e.health
    ensures n <= e.health ==> FrameAsWritten(e, n) == Success(Frame(e, n))
    decreases n
  {
    if n > 0 {
      FrameKills(Damage(e).0, n - 1);
    }
  }

  /** The waypoint `update` steers towards (`route[goal]`). */
  function Target(e: Enemy): Vec2
    requires OnRoute(e)
  {
    e.route[e.goal]
  }

  /** The goal bookkeeping of `Enemy::update`; `arrived` stands for the
      floating-point test that the enemy is within 0.2 of its waypoint. */
  function Update(e: Enemy, arrived: bool): (r: Enemy)
    requires OnRoute(e)
    ensures OnRoute(r)
    ensures r.route == e.route && r.health == e.health
    ensures !arrived ==> r.goal == e.goal
    ensures arrived && e.goal + 1 < |e.route| ==> r.goal == e.goal + 1
    ensures arrived && e.goal + 1 == |e.route| ==> r.goal == 0
  {
    if arrived then
      var g := e.goal + 1;
      e.(goal := if g >= |e.route| then 0 else g)
    else e
  }

  /** `n` arrivals in a row. */
  function Arrivals(e: Enemy, n: nat): (r: Enemy)
    requires OnRoute(e)
    ensures OnRoute(r)
    decreases n
  {
    if n == 0 then e else Arrivals(Update(e, true), n - 1)
  }

  lemma {:induction false} ArrivalsAdd(e: Enemy, a: nat, b: nat)
    requires OnRoute(e)
    ensures Arrivals(e, a + b) == Arrivals(Arrivals(e, a), b)
    decreases a
  {
    if a > 0 {
      ArrivalsAdd(Update(e, true), a - 1, b);
    }
  }

  /** Before the end of the route, each arrival moves one waypoint on. */
  lemma {:induction false} ArrivalsForward(e: Enemy, k: nat)
    requires OnRoute(e) && e.goal + k < |e.route|
    ensures Arrivals(e, k) == e.(goal := e.goal + k)
    decreases k
  {
    if k > 0 {
      ArrivalsForward(Update(e, true), k - 1);
    }
  }

  /** Arrivals walk the route cyclically: after as many arrivals as there
      are waypoints, the enemy heads for the same waypoint again, and on
      the way it passed the end of the route and restarted at the first. */
  lemma FullCycle(e: Enemy)
    requires OnRoute(e)
    ensures Arrivals(e, |e.route| - e.goal).goal == 0
    ensures Arrivals(e, |e.route|) == e
  {
    var len := |e.route|;
    var k := len - e.goal - 1;
    ArrivalsForward(e, k);
    var last := Arrivals(e, k);
    ArrivalsAdd(e, k, 1);
    assert Arrivals(last, 1) == Arrivals(Update(last, true), 0);
    var start := Arrivals(e, len - e.goal);
    assert start == e.(goal := 0);
    ArrivalsAdd(e, len - e.goal, e.goal);
    ArrivalsForward(start, e.goal);
  }
}

=== FILE: shooter_game.dfy ===
/** The 2D shooter's hand-rolled entity store (`Game`): a monotonic id
    counter over five parallel component maps, plus the two shooting
    cooldowns. */
module ShooterGame {
  import opened Wrappers
  import opened ShooterPrelude
  import opened ShooterEnemy

  datatype BulletKind = Straight(velocity: Vec2)
  datatype BulletKills = Good | Bad
  datatype Bullet = Bullet(kind: BulletKind, kills: BulletKills)

  /** The game state the entity store and the cooldowns touch; the key
      map, screen box and level closures are left out. */
  datatype Game = Game(
    isos: map<nat, Iso2>,
    bullets: map<nat, Bullet>,
    enemies: map<nat, Enemy>,
    hitboxes: map<nat, Cuboid>,
    appearances: map<nat, string>,
    shootingCooldown: nat,
    player: nat,
    entCount: nat)

  /** `k` has some component. */
  predicate Holds(g: Game, k: nat) {
    k in g.isos || k in g.bullets || k in g.enemies || k in g.hitboxes || k in g.appearances
  }

  /** Every component belongs to an id the counter has handed out. */
  ghost predicate Valid(g: Game) {
    && (forall k :: k in g.isos ==> k < g.entCount)
    && (forall k :: k in g.bullets ==> k < g.entCount)
    && (forall k :: k in g.enemies ==> k < g.entCount)
    && (forall k :: k in g.hitboxes ==> k < g.entCount)
    && (forall k :: k in g.appearances ==> k < g.entCount)
  }

  /** `k` has exactly the same components in `g` and `h`. */
  ghost predicate SameAt(g: Game, h: Game, k: nat) {
    && (k in g.isos <==> k in h.isos) && (k in g.isos ==> g.isos[k] == h.isos[k])
    && (k in g.bullets <==> k in h.bullets) && (k in g.bullets ==> g.bullets[k] == h.bullets[k])
    && (k in g.enemies <==> k in h.enemies) && (k in g.enemies ==> g.enemies[k] == h.enemies[k])
    && (k in g.hitboxes <==> k in h.hitboxes) && (k in g.hitboxes ==> g.hitboxes[k] == h.hitboxes[k])
    && (k in g.appearances <==> k in h.appearances)
    && (k in g.appearances ==> g.appearances[k] == h.appearances[k])
  }

  /** `Game::entity`: hand out the counter and bump it by one. The id was
      never handed out before, so it holds no component. */
  function Entity(g: Game): (r: (Game, nat))
    ensures r.1 == g.entCount && r.0.entCount == r.1 + 1
    ensures r.0.(entCount := g.entCount) == g
    ensures Valid(g) ==> Valid(r.0) && !Holds(g, r.1)
  {
    (g.(entCount := g.entCount + 1), g.entCount)
  }

  /** Ids are never reused: of any two ids handed out one after the other,
      the later is strictly greater. */
  lemma EntitiesIncrease(g: Game)
    ensures var (g1, a) := Entity(g); var (_, b) := Entity(g1); a < b
  {
  }

  /** `Game::max_entity`: a bound on every id in use, which is what the
      render loop's `0..max_entity()` scan relies on. */
  function MaxEntity(g: Game): (r: nat)
    ensures r == g.entCount
    ensures Valid(g) ==> forall k: nat :: Holds(g, k) ==> k < r
  {
    g.entCount
  }

  /** `Game::insert_bullet`. */
  function InsertBullet(g: Game, iso: Iso2, hb: Cuboid, bullet: Bullet): (r: (Game, nat))
    requires Valid(g)
    ensures Valid(r.0) && !Holds(g, r.1) && r.0.entCount == g.entCount + 1
    ensures r.0.isos == g.isos[r.1 := iso]
    ensures r.0.bullets == g.bullets[r.1 := bullet]
    ensures r.0.hitboxes == g.hitboxes[r.1 := hb]
    ensures r.0.appearances == g.appearances[r.1 := "Bullet"]
    ensures r.0.enemies == g.enemies && r.1 !in r.0.enemies
    ensures r.0.shootingCooldown == g.shootingCooldown && r.0.player == g.player
  {
    var (g1, ent) := Entity(g);
    (g1.(isos := g1.isos[ent := iso],
         bullets := g1.bullets[ent := bullet],
         hitboxes := g1.hitboxes[ent := hb],
         appearances := g1.appearances[ent := "Bullet"]), ent)
  }

  /** `Game::insert_enemy`. */
  function InsertEnemy(g: Game, iso: Iso2, hb: Cuboid, enemy: Enemy): (r: (Game, nat))
    requires Valid(g)
    ensures Valid(r.0) && !Holds(g, r.1) && r.0.entCount == g.entCount + 1
    ensures r.0.isos == g.isos[r.1 := iso]
    ensures r.0.enemies == g.enemies[r.1 := enemy]
    ensures r.0.hitboxes == g.hitboxes[r.1 := hb]
    ensures r.0.appearances == g.appearances[r.1 := "Enemy"]
    ensures r.0.bullets == g.bullets && r.1 !in r.0.bullets
    ensures r.0.shootingCooldown == g.shootingCooldown && r.0.player == g.player
  {
    var (g1, ent) := Entity(g);
    (g1.(isos := g1.isos[ent := iso],
         enemies := g1.enemies[ent := enemy],
         hitboxes := g1.hitboxes[ent := hb],
         appearances := g1.appearances[ent := "Enemy"]), ent)
  }

  /** `Game::delete_ent`: `kill` loses every component; every other id
      keeps exactly what it had. */
  function DeleteEnt(g: Game, kill: nat): (r: Game)
    ensures !Holds(r, kill)
    ensures forall k: nat :: k != kill ==> SameAt(g, r, k)
    ensures Valid(g) ==> Valid(r)
    ensures r.entCount == g.entCount && r.player == g.player
    ensures r.shootingCooldown == g.shootingCooldown
  {
    g.(isos := g.isos - {kill},
       bullets := g.bullets - {kill},
       enemies := g.enemies - {kill},
       hitboxes := g.hitboxes - {kill},
       appearances := g.appearances - {kill})
  }

  /** Deleting twice is deleting once. */
  lemma DeleteEntIdempotent(g: Game, kill: nat)
    ensures DeleteEnt(DeleteEnt(g, kill), kill) == DeleteEnt(g, kill)
  {
  }

  /** `Game::player`: a fresh id, remembered as the player. */
  function Player(g: Game): (r: (Game, nat))
    requires Valid(g)
    ensures r.0.player == r.1 && !Holds(g, r.1)
    ensures Valid(r.0) && r.0.entCount == g.entCount + 1
    ensures r.0.(player := g.player, entCount := g.entCount) == g
  {
    var (g1, ent) := Entity(g);
    (g1.(player := ent), ent)
  }

  /** The cooldown rule both shooters follow: from zero a shot is fired and
      the counter reloads to 5, otherwise the counter counts down. */
  function Cooldown(cd: nat): (r: nat)
    ensures cd == 0 ==> r == 5
    ensures cd > 0 ==> r + 1 == cd
  {
    if cd == 0 then 5 else cd - 1
  }

  /** The player's shot in the game loop. The cooldown only moves while
      the shoot key is held. */
  function PlayerShoot(g: Game, shouldShoot: bool): (r: Game)
    requires Valid(g) && g.player in g.isos
    ensures Valid(r)
    ensures !shouldShoot ==> r == g
    ensures shouldShoot && g.shootingCooldown > 0 ==>
      r == g.(shootingCooldown := g.shootingCooldown - 1)
    ensures shouldShoot && g.shootingCooldown == 0 ==>
      && r.shootingCooldown == 5
      && r.entCount == g.entCount + 1
      && g.entCount !in g.bullets
      && r.bullets == g.bullets[g.entCount := Bullet(Straight(Vec2(0.0, -0.4)), Bad)]
      && r.isos == g.isos[g.entCount := g.isos[g.player]]
      && r.hitboxes == g.hitboxes[g.entCount := Cuboid(Vec2(1.0, 1.0))]
      && r.appearances == g.appearances[g.entCount := "Bullet"]
      && r.enemies == g.enemies
    ensures shouldShoot ==> r.shootingCooldown == Cooldown(g.shootingCooldown)
    ensures shouldShoot ==> (r.entCount == g.entCount + 1 <==> g.shootingCooldown == 0)
    ensures r.entCount <= g.entCount + 1
    ensures r.player == g.player && r.player in r.isos
  {
    if shouldShoot then
      if g.shootingCooldown == 0 then
        var (g1, _) := InsertBullet(g, g.isos[g.player], Cuboid(Vec2(1.0, 1.0)),
                                    Bullet(Straight(Vec2(0.0, -0.4)), Bad));
        g1.(shootingCooldown := 5)
      else g.(shootingCooldown := g.shootingCooldown - 1)
    else g
  }

  /** The cooldown after `n` ticks in which a shot was wanted, from zero. */
  function CooldownAfter(n: nat): nat {
    if n == 0 then 0 else Cooldown(CooldownAfter(n - 1))
  }

  /** Starting from zero, a shooter that wants to fire every tick fires on
      exactly every sixth tick. */
  lemma {:induction false} FiresEverySixthTick(n: nat)
    ensures CooldownAfter(n) == 0 <==> n % 6 == 0
    ensures CooldownAfter(n) <= 5
    ensures CooldownAfter(n) == (6 - n % 6) % 6
  {
    if n > 0 {
      FiresEverySixthTick(n - 1);
    }
  }

  /** `n` ticks of the game loop with the shoot key held throughout. */
  function ShootFor(g: Game, n: nat): (r: Game)
    requires Valid(g) && g.player in g.isos
    ensures Valid(r) && r.player == g.player && r.player in r.isos
    decreases n
  {
    if n == 0 then g else PlayerShoot(ShootFor(g, n - 1), true)
  }

  /** Holding the shoot key from a loaded gun, the player's cooldown
      follows `CooldownAfter` and a bullet is fired on ticks 1, 7, 13, …:
      after `n` ticks, one bullet per started block of six. */
  lemma {:induction false} HeldShootFiresEverySixthTick(g: Game, n: nat)
    requires Valid(g) && g.player in g.isos && g.shootingCooldown == 0
    ensures ShootFor(g, n).shootingCooldown == CooldownAfter(n)
    ensures ShootFor(g, n).entCount == g.entCount + (n + 5) / 6
  {
    if n > 0 {
      HeldShootFiresEverySixthTick(g, n - 1);
      FiresEverySixthTick(n - 1);
      var prev := ShootFor(g, n - 1);
      assert ShootFor(g, n) == PlayerShoot(prev, true);
      StartedBlocksStep(n - 1);
    }
  }

  /** One more tick starts a new block of six exactly after a multiple of
      six. */
  lemma StartedBlocksStep(m: nat)
    ensures (m + 6) / 6 == (m + 5) / 6 + (if m % 6 == 0 then 1 else 0)
  {
    var q, k := m / 6, m % 6;
    assert m == 6 * q + k;
    assert (m + 6) / 6 == q + 1 by {
      assert m + 6 == 6 * (q + 1) + k;
    }
    if k == 0 {
      assert (m + 5) / 6 == q by { assert m + 5 == 6 * q + 5; }
    } else {
      assert (m + 5) / 6 == q + 1 by { assert m + 5 == 6 * (q + 1) + (k - 1); }
    }
  }

  datatype Panic = EnemyWithNoPos(id: nat)

  /** Bullet number `i` of a volley fired on `g` leaves enemy `order[i]`'s
      position with velocity `velocities[i]`, kills the player, and has a
      1×1 hitbox and the "Bullet" appearance. */
  ghost predicate VolleyBullet(g: Game, r: Game, order: seq<nat>, velocities: seq<Vec2>, i: nat)
    requires i < |order| && |velocities| == |order|
  {
    && order[i] in g.isos
    && g.entCount + i in r.bullets
    && r.bullets[g.entCount + i] == Bullet(Straight(velocities[i]), Good)
    && g.entCount + i in r.isos
    && r.isos[g.entCount + i] == g.isos[order[i]]
    && g.entCount + i in r.hitboxes
    && r.hitboxes[g.entCount + i] == Cuboid(Vec2(1.0, 1.0))
    && g.entCount + i in r.appearances
    && r.appearances[g.entCount + i] == "Bullet"
  }

  /** The first level's volley: one bullet from each enemy, at that
      enemy's position, in the map's iteration order `order`, with the
      randomly drawn velocities. An enemy without a position panics. */
  function Volley(g: Game, order: seq<nat>, velocities: seq<Vec2>): (r: Result<Game, Panic>)
    requires Valid(g) && |velocities| == |order|
    requires forall i :: 0 <= i < |order| ==> order[i] in g.enemies
    ensures r.Failure? <==> exists i :: 0 <= i < |order| && order[i] !in g.isos
    ensures r.Success? ==>
      && Valid(r.value)
      && r.value.entCount == g.entCount + |order|
      && r.value.enemies == g.enemies
      && r.value.shootingCooldown == g.shootingCooldown && r.value.player == g.player
      // what existed before is untouched
      && (forall k: nat :: k < g.entCount ==> SameAt(g, r.value, k))
      && (forall i: nat :: i < |order| ==> VolleyBullet(g, r.value, order, velocities, i))
    decreases |order|
  {
    if order == [] then Success(g)
    else if order[0] !in g.isos then Failure(EnemyWithNoPos(order[0]))
    else
      var (g1, ent) := InsertBullet(g, g.isos[order[0]], Cuboid(Vec2(1.0, 1.0)),
                                    Bullet(Straight(velocities[0]), Good));
      assert forall i :: 0 <= i < |order| ==> order[i] < g.entCount;
      assert forall i :: 1 <= i < |order| ==> (order[i] in g1.isos <==> order[i] in g.isos);
      assert forall i :: 1 <= i < |order| && order[i] in g.isos ==> g1.isos[order[i]] == g.isos[order[i]];
      var r := Volley(g1, order[1..], velocities[1..]);
      assert r.Success? ==>
        && (forall k: nat :: k < g.entCount ==> SameAt(g, r.value, k))
        && (forall i: nat :: i < |order| ==> VolleyBullet(g, r.value, order, velocities, i))
      by {
        if r.Success? {
          forall k: nat | k < g.entCount ensures SameAt(g, r.value, k) {
            assert SameAt(g, g1, k) && SameAt(g1, r.value, k);
          }
          forall i: nat | i < |order|
            ensures VolleyBullet(g, r.value, order, velocities, i)
          {
            if i == 0 {
              assert SameAt(g1, r.value, ent);
            } else {
              assert order[1..][i - 1] == order[i] && velocities[1..][i - 1] == velocities[i];
              assert g1.entCount + (i - 1) == g.entCount + i;
              assert VolleyBullet(g1, r.value, order[1..], velocities[1..], i - 1);
            }
          }
        }
      }
      assert r.Failure? ==> exists i :: 0 <= i < |order| && order[i] !in g.isos by {
        if r.Failure? {
          var j :| 0 <= j < |order| - 1 && order[1..][j] !in g1.isos;
          assert order[j + 1] !in g.isos;
        }
      }
      r
  }

  /** The first level's update: fire a volley when the counter is at zero
      and reload it to 5, otherwise count down and change nothing. `order`
      is the enemy map's iteration order: every enemy, each once. */
  function LevelOneUpdate(g: Game, cooldown: nat, order: seq<nat>, velocities: seq<Vec2>)
    : (r: Result<(Game, nat), Panic>)
    requires Valid(g) && |velocities| == |order|
    requires forall i :: 0 <= i < |order| ==> order[i] in g.enemies
    requires forall k :: k in g.enemies ==> k in order
    requires Distinct(order)
    ensures cooldown == 0 ==>
      && (r.Success? <==> Volley(g, order, velocities).Success?)
      && (r.Success? ==> r.value.0 == Volley(g, order, velocities).value)
    ensures cooldown == 0 ==> (r.Failure? <==> exists k :: k in g.enemies && k !in g.isos)
    ensures cooldown > 0 ==> r == Success((g, cooldown - 1))
    ensures cooldown == 0 && r.Success? ==>
      r.value.1 == 5 && r.value.0.entCount == g.entCount + |order|
    ensures cooldown <= 5 && r.Success? ==> r.value.1 <= 5
    ensures r.Failure? ==> cooldown == 0 && exists k :: k in g.enemies && k !in g.isos
  {
    if cooldown == 0 then
      match Volley(g, order, velocities)
      case Failure(p) => Failure(p)
      case Success(g1) => Success((g1, Cooldown(cooldown)))
    else Success((g, Cooldown(cooldown)))
  }
}

=== FILE: wrappers.dfy ===
/** Failure-compatible wrappers used throughout the model: `Option` for
    lookups that may miss, `Result` for operations whose Rust original
    panics on some inputs (the panic becomes a `Failure`). */
module Wrappers {

  datatype Option<+T> = None | Some(value: T)

  datatype Result<+T, +E> = Success(value: T) | Failure(error: E)
}
